=== FILE: README.md ===
# Automa runner: a Dafny model

The runner starts Automa browser-extension workflows from an HTTP API.

- **Starting a run.** A client posts a run request to `/api/runs`. The server admits it under a lock on the shared browser profile, validates the workflow and registers a run record. In the background it launches Chromium with the extension and triggers the workflow.
- **Following a run.** Log entries go into the run's record and are pushed to every open event stream of the run. A new stream first receives the backlog.
- **The page's view.** The web page keeps a per-node progress view driven by the streamed messages.

This project models the core of that system and proves properties of the model:

| file | models |
|---|---|
| `common.dfy` | Option/Result and the JavaScript string operations used (`startsWith`, `trim`, `indexOf`, ASCII `toLowerCase`) |
| `json.dfy` | JavaScript values: truthiness, property lookup and assignment in insertion order, `===` |
| `store.dfy` | the in-memory run registry (`runner/src/core/store.js`); every `res.write` is recorded, in order, in a `Wire` trace |
| `app.dfy` | the run endpoints (`runner/src/web/app.js`): admission, validation, run lifecycle, status query, event stream |
| `config.dfy` | `.env` loading and the options derived from the environment (`runner/src/web/config.js`) |
| `browser.dfy` | extension-id discovery via CDP targets and via the profile directory, and welcome-page closing (`runner/src/core/browser.js`) |
| `trigger.dfy` | the execute message, the state projection printed from the extension page, and the trigger sequence (`runner/src/core/trigger.js`) |
| `logger.dfy` | coloured console lines (`runner/src/core/logger.js`) |
| `progress.dfy` | the page's run controller and node-progress state machine (`runner/views/src/composables/useRunner.js`) |
| `messages.dfy` | block-message localisation with fallback to the raw key (`src/utils/getBlockMessage.js`) |

The server's two invariants are stated as `RunApi.App.Valid`; every endpoint keeps them:

- **Lock invariant.** In shared-profile mode the lock is held exactly while some run is running, and only one run is.
- **Stream invariant.** Every open event stream has received exactly the log of the run it follows, in order, and is registered once with that run.

The page's progress view has two monotonicity properties, proved for every message except `wfmeta`:

- **Node states only advance**, in the order pending, active, done, error.
- **Node detail records only grow.** A node's start and end times, once set, stay; its log only gets longer.

Clocks, generated ids, the file system, the browser and the network are parameters of the model.

## Model

| member | source | states |
|---|---|---|
| RunStore.Fanout | runner/src/core/store.js:23-24 | one write per listener, in listener order, each carrying the entry |
| RunStore.FanoutExactlyOnce | runner/src/core/store.js:23-24 | with distinct listeners, a pushed entry reaches each listener exactly once and nobody else |
| RunStore.ReceivedFanout | runner/src/core/store.js:24 | a response receives the entry as often as it occurs in the listener list |
| RunStore.ReceivedAppend | runner/src/core/store.js:24 | what a response receives from two write sequences is what it receives from each, in order |
| RunStore.WithoutAppend | runner/src/core/store.js:42 | the `filter` removal commutes with concatenation, so the remaining listeners keep their order |
| RunStore.WithoutCount | runner/src/core/store.js:42 | removal drops every occurrence of the response and keeps every other listener's multiplicity |
| RunStore.WithoutNoDuplicates | runner/src/core/store.js:42 | removal keeps a duplicate-free listener list duplicate-free |
| RunStore.WithoutAbsent | runner/src/core/store.js:41-42 | removing a response that is not listening changes nothing |
| RunStore.Wire.Send | runner/src/core/store.js:24 | a `res.write` is appended to the trace of writes |
| RunStore.Store.InitRun | runner/src/core/store.js:6-10 | a new queued record with an empty log replaces any record under the id; other ids keep theirs |
| RunStore.Store.GetRun | runner/src/core/store.js:13-15 | the record under the id, or nothing for an unknown id |
| RunStore.Store.PushLog | runner/src/core/store.js:18-24 | unknown id: nothing changes; otherwise the entry is appended, `lastLogAt` is its time, and it is written to every listener in order |
| RunStore.Store.AddListener | runner/src/core/store.js:30-36 | false and no change for an unknown run; otherwise true and the response becomes the last listener |
| RunStore.Store.RemoveListener | runner/src/core/store.js:39-43 | every occurrence of the response leaves the run's listeners; an unknown run is left alone |
| RunApi.SelectWorkflow | runner/src/web/app.js:58-70 | an inline workflow wins; otherwise a truthy workflow read from a `.json` reference is the one selected; the handler crashes (500) exactly for a truthy reference that is not a string; the result is always truthy; refusals are 400 |
| RunApi.SelectWorkflowErrors | runner/src/web/app.js:59-70 | each of the three 400 messages is given exactly when its condition holds (both directions) |
| RunApi.Appended | runner/src/core/store.js:21-22 | the log grows by the entry; status and listeners are unchanged |
| RunApi.Launched | runner/src/web/app.js:73-86 | the accepted record: running, no listeners, no end time, no error, log holding only the launch entry |
| RunApi.EndEntry | runner/src/web/app.js:88-95 | an `end` entry exactly after success; after a throw an `error` entry carrying the message |
| RunApi.Ended | runner/src/web/app.js:88-95 | success: `succeeded` and an `end` entry; thrown error: `failed`, the message as `error` and as an `error` entry; end time set, listeners kept |
| RunApi.Orphaned | runner/src/web/app.js:72-73 | re-initialising a run id drops exactly the streams that followed the replaced record |
| RunApi.BacklogWrites | runner/src/web/app.js:127 | one write per log entry, to the subscribing response, in log order |
| RunApi.ReceivedBacklog | runner/src/web/app.js:127 | the backlog reaches the subscribing response only, whole and in order |
| RunApi.ListenerFollows | runner/src/core/store.js:30-36 | under the stream invariant, every listener of a run is a stream that follows it |
| RunApi.AppendKeepsStreams | runner/src/core/store.js:18-24 | `pushLog` keeps every stream in step with its run's log |
| RunApi.RecordKeepsStreams | runner/src/web/app.js:88-94 | changing status, end time or error keeps every stream in step |
| RunApi.InitKeepsStreams | runner/src/core/store.js:6-10 | a fresh record keeps the stream invariant for the streams that are not orphaned |
| RunApi.SubscribeKeepsStreams | runner/src/web/app.js:126-127 | registering first and then writing the backlog puts the new stream in step and disturbs no other |
| RunApi.CloseKeepsStreams | runner/src/web/app.js:132-135 | removing a stream from its run keeps every remaining stream in step |
| RunApi.CloseOtherKeepsStreams | runner/src/web/app.js:132-135 | removing a response that does not follow the run leaves the record unchanged |
| RunApi.WithoutKeepsListeners | runner/src/core/store.js:42 | the remaining listeners still follow the run, once each |
| RunApi.PingKeepsStreams | runner/src/web/app.js:129-131 | a heartbeat carries no log entry, so no stream's log changes |
| RunApi.CreateKeepsLock | runner/src/web/app.js:55-56 | with the lock free, the new running run takes it and is the only running run |
| RunApi.LaunchKeeps | runner/src/web/app.js:72-86 | the synchronous start (`initRun`, lock, `running`, launch entry) gives the launched record and keeps both invariants |
| RunApi.CompleteKeepsLock | runner/src/web/app.js:96-98 | a run leaving `running` releases the lock consistently |
| RunApi.StatusKeepsLock | runner/src/web/app.js:55-56 | a change that keeps every status keeps the lock invariant |
| RunApi.App.constructor | runner/src/web/app.js:142 | no runs, lock free, invariants hold |
| RunApi.App.Create | runner/src/web/app.js:52-105 | shared mode with the lock held: 409 with the busy message and no change; otherwise the validation outcome, and an accepted run is registered as `Launched`, holding the lock in shared mode; invariants kept |
| RunApi.App.Launch | runner/src/web/app.js:72-86 | the accepted record replaces the id's record, the lock is taken in shared mode, nothing is written to streams |
| RunApi.App.Log | runner/src/web/app.js:75 | a background log entry is appended through the store, written once to each listener in order and nothing else is written; keeps both invariants |
| RunApi.App.Complete | runner/src/web/app.js:87-98 | the record becomes `Ended` for the outcome, its end entry is written once to each listener in order and nothing else, and the lock is released (`finally`); invariants kept |
| RunApi.App.GetAsWritten | runner/src/web/app.js:108-112 | 404 exactly for an unknown id; fails (500) exactly when a stream is attached; otherwise the snapshot |
| RunApi.App.Get | runner/src/web/app.js:108-112 | 404 exactly for an unknown id; otherwise the run's id, status, creation time, end time, last-log time, error and log; never fails |
| RunApi.App.Subscribe | runner/src/web/app.js:115-127 | unknown run: no change; otherwise the response is registered, then written the whole backlog, and has received exactly the log; the record's GET then fails as written |
| RunApi.App.Close | runner/src/web/app.js:132-135 | the response leaves the run's listeners, nothing is written, invariants kept |
| RunApi.App.Heartbeat | runner/src/web/app.js:129-131 | one ping is written, invariants kept |
| Config.Lines | runner/src/web/config.js:20 | the pieces of a `split(/\r?\n/)`: at least one, none containing a line feed |
| Config.LinesSingle | runner/src/web/config.js:20 | text without a line feed is one piece, kept whole |
| Config.LinesCons | runner/src/web/config.js:20 | the first piece is the text before the first line feed without a carriage return that ends it; the rest is split in turn |
| Config.LinesJoin | runner/src/web/config.js:20 | for text without carriage returns, joining the pieces with line feeds gives the text back |
| Config.ParseLineSkips | runner/src/web/config.js:21-27 | blank, comment, `=`-less and `=`-first lines are skipped; a read key is non-empty, trimmed and `=`-free |
| Config.ParseQuotedAssignment | runner/src/web/config.js:21-27 | `KEY="value"` reads back as the key and the unquoted value |
| Config.ParseAssignment | runner/src/web/config.js:21-27 | for every writable key k and every value text v, the line `k=v` reads as k and the trimmed, unquoted v: the first `=` splits the line, whatever v holds |
| Config.UnquoteQuoted | runner/src/web/config.js:27 | one pair of surrounding double quotes is removed |
| Config.FirstValueSnoc | runner/src/web/config.js:28 | a later line never overrides an earlier definition |
| Config.LoadEnvFile | runner/src/web/config.js:15-31 | variables already set keep their values; an unset variable gets the first value the file defines, or stays unset |
| Config.LoadStep | runner/src/web/config.js:20-28 | one pass of the loop keeps that correspondence |
| Config.LoadStartupEnv | runner/src/web/config.js:34-35 | `.env` first, then `.env.development` when NODE_ENV is `development` after the first load; nothing overrides the environment, `.env` wins |
| Config.ProfileModeNormalises | runner/src/web/config.js:41 | `per-run` exactly for the value `per-run`; the mode round-trips through its name |
| Config.FinishPolicyNormalises | runner/src/web/config.js:44-46 | `idle`/`triggered` exactly for those values, `timeout` otherwise; round-trips through its name |
| Config.OpenBridge | runner/src/web/config.js:39 | off exactly for the value `false` |
| Config.Headless | runner/src/web/config.js:40 | on exactly for the value `true` |
| Config.Host | runner/src/web/config.js:36 | the variable when non-empty, else `0.0.0.0` |
| Config.PlaywrightDebug | runner/src/web/config.js:49-51 | a set PW_DEBUG wins, even empty; otherwise `pw:api` in development and empty elsewhere |
| Config.NumericDefaults | runner/src/web/config.js:37-47 | PORT defaults to 3100 and IDLE_MS to 3000 when unset or empty |
| Config.NumberOfDecimal | runner/src/web/config.js:37 | `Number` of a numeral is its value |
| Config.NumericOptionsReadBack | runner/src/web/config.js:37-47 | a port or idle time written as a numeral is read back |
| ExtensionLookup.FirstExtension | runner/src/core/browser.js:46-48 | the first `service_worker` target with a `chrome-extension://` URL, or none |
| ExtensionLookup.Authority | runner/src/core/browser.js:49 | the longest delimiter-free prefix of the text after the scheme |
| ExtensionLookup.HostOfExtensionUrl | runner/src/core/browser.js:49 | the host of `chrome-extension://<id><path>` is the id |
| ExtensionLookup.AuthorityOf | runner/src/core/browser.js:49 | the authority of an id followed by a delimiter is the id |
| ExtensionLookup.CdpResult | runner/src/core/browser.js:43-53 | failure with the CDP message exactly when no poll found an extension target; success is some poll's host |
| ExtensionLookup.Deadline | runner/src/core/browser.js:43 | the first clock reading at or past the timeout |
| ExtensionLookup.PollsOf | runner/src/core/browser.js:45 | the answer of each poll, in order |
| ExtensionLookup.FindExtensionIdViaCdp | runner/src/core/browser.js:40-54 | the loop's result is the first host found among the polls made before the deadline, else the CDP failure |
| ExtensionLookup.ScanIds | runner/src/core/browser.js:61-79 | found: an id directory with a matching manifest; missed: no id directory has one |
| ExtensionLookup.ScanIdsFirst | runner/src/core/browser.js:65-79 | the first matching id directory wins |
| ExtensionLookup.HasMatchingVersion | runner/src/core/browser.js:70-78 | the inner loop answers whether some version directory holds a matching manifest |
| ExtensionLookup.ScanProfile | runner/src/core/browser.js:61-80 | one pass of the outer loop computes the scan of the directory tree |
| ExtensionLookup.FirstPassAlwaysScans | runner/src/core/browser.js:60-81 | the profile is scanned at least once, even with the deadline passed |
| ExtensionLookup.ProfileTimesOut | runner/src/core/browser.js:81-84 | the profile failure comes exactly when every pass up to the deadline missed |
| ExtensionLookup.FindExtensionIdFromProfile | runner/src/core/browser.js:57-85 | the polling loop's result is the specification over the passes |
| ExtensionLookup.Page.Close | runner/src/core/browser.js:91 | a page closes unless closing fails |
| ExtensionLookup.CloseWelcomePages | runner/src/core/browser.js:88-94 | exactly the welcome pages of the extension are closed, failures swallowed, other pages untouched |
| Trigger.WorkflowToSend | runner/src/core/trigger.js:14-15 | a truthy id is kept; otherwise `runner-<stamp>`; every other field unchanged |
| Trigger.ExecuteOptions | runner/src/core/trigger.js:27 | `checkParams` false and the variables under `data` |
| Trigger.ExecuteMessage | runner/src/core/trigger.js:25-28 | the message name, and data holding the workflow's fields with `options` replaced by the runner's |
| Trigger.ChooseRuntime | runner/src/core/trigger.js:29-75 | `chrome` in preference to `browser`; none exactly when neither exists |
| Trigger.FindRecord | runner/src/core/trigger.js:37 | the index of the first record of the workflow, or -1 when none is |
| Trigger.Emit | runner/src/core/trigger.js:34-43 | nothing for a falsy state or when no record is the workflow's; otherwise the payload of the first such record |
| Trigger.StatePayloadShape | runner/src/core/trigger.js:39-40 | the payload has status, blocks and current, in that order; current is null exactly without a truthy first current block |
| Trigger.Evaluate | runner/src/core/trigger.js:22-79 | not sent exactly without a runtime; sent exactly with a runtime and no send error |
| Trigger.OutcomeEntry | runner/src/core/trigger.js:80-81 | an error entry exactly when the result carries a non-empty error; the info entry otherwise, `false` included |
| Trigger.TriggerViaExecutePage | runner/src/core/trigger.js:5-85 | a page that cannot be opened fails the call with nothing logged; a navigation failure only logs a warning; a runtime timeout or a rejected evaluation propagates and sends nothing; otherwise the message leaves through the chosen runtime exactly when one exists and sending does not throw, and the outcome is logged |
| Logger.Escape | runner/src/core/logger.js:3-10 | every colour is an escape sequence |
| Logger.Wrap | runner/src/core/logger.js:12-14 | the line is the colour, the text and the reset, and the text can be cut back out |
| Logger.WrapInjective | runner/src/core/logger.js:3-14 | a wrapped line determines its colour and its text |
| Logger.RequestColor | runner/src/core/logger.js:34-39 | link URLs are bright blue; otherwise red, yellow, bright blue or green exactly for 5xx+, 4xx, 3xx or below |
| Logger.RequestColorMonotone | runner/src/core/logger.js:35-38 | outside the link URLs a higher code never gets a less alarming colour |
| Logger.IntText | runner/src/core/logger.js:40 | a number's decimal text, with a sign when negative |
| Logger.StatusCode | runner/src/core/logger.js:32 | the status code, 0 when missing |
| Logger.RequestUrl | runner/src/core/logger.js:33 | the original URL, else the URL, else empty |
| Logger.RequestLineColor | runner/src/core/logger.js:34-40 | a link line starts with bright blue; any other line starts with red exactly for codes of 500 and more |
| Logger.EntryColor | runner/src/core/logger.js:82-85 | yellow exactly for `warn`; red exactly for the three failure types; dim exactly for `trace`/`console`; green otherwise |
| Logger.PrintSseEntry | runner/src/core/logger.js:77-88 | nothing exactly for a falsy entry or an entry of type `ping`, a line for every other entry |
| Logger.PrintSseEntryNoText | runner/src/core/logger.js:77-88 | the line of an entry without text ends in ` - ` and the reset: the text defaults to empty |
| Logger.SseLineReadBack | runner/src/core/logger.js:86-87 | a line starts with the run prefix and the type's colour and ends with the text and the reset |
| Logger.SseLineColor | runner/src/core/logger.js:82-87 | a line's colour and body are those of the entry's type, time and text |
| BlockMessages.DetectedLanguage | src/utils/getBlockMessage.js:10-15 | failure exactly when reading the document language throws; a non-empty document language wins; otherwise the navigator's; lower-cased |
| BlockMessages.ChooseLang | src/utils/getBlockMessage.js:9-21 | English exactly when the detected language starts with `en` |
| BlockMessages.ChooseLangByTag | src/utils/getBlockMessage.js:11-21 | the document language decides alone when non-empty, in any letter case; else the navigator's; a throw gives Chinese |
| BlockMessages.LowerTag | src/utils/getBlockMessage.js:15-16 | lower-casing then testing `en` is testing `e`/`n` in either case |
| BlockMessages.Normalize | src/utils/getBlockMessage.js:5 | the join of no values is empty |
| BlockMessages.Interpolate | src/utils/getBlockMessage.js:6 | the block's property, undefined exactly when absent |
| BlockMessages.Named | src/utils/getBlockMessage.js:7 | the key itself |
| BlockMessages.NormalizeAppend | src/utils/getBlockMessage.js:5 | joining two value lists is joining each |
| BlockMessages.RenderAppend | src/utils/getBlockMessage.js:5-25 | a message renders piece by piece |
| BlockMessages.RenderSlot | src/utils/getBlockMessage.js:6 | a slot renders as the property, or as nothing when the block lacks it |
| BlockMessages.RenderNamedOnly | src/utils/getBlockMessage.js:6-7 | only the keys a message names matter |
| BlockMessages.BlockMessage | src/utils/getBlockMessage.js:23-27 | the chosen locale's message applied to the helpers, or the key unchanged when that locale has none |
| BlockMessages.UnknownKeyShown | src/utils/getBlockMessage.js:27 | a key neither locale knows is shown unchanged in every environment |
| BlockMessages.DetectionFailureIsChinese | src/utils/getBlockMessage.js:19-21 | when detection throws, the Chinese locale is used |
| Progress.LabelText | runner/views/src/composables/useRunner.js:74-110 | a node's label as the start, finish and failure entries print it: a missing label prints as `undefined` |
| Progress.EndLabelText | runner/views/src/composables/useRunner.js:142-145 | the label as the `end` pass prints it: a missing label prints as nothing |
| Progress.FindNode | runner/views/src/composables/useRunner.js:91 | the first node whose id or raw label matches the current block, or -1 |
| Progress.Located | runner/views/src/composables/useRunner.js:89-92 | the current block's node index, or -1 without one |
| Progress.AfterCurrent | runner/views/src/composables/useRunner.js:93-98 | moving to a node keeps the number of states |
| Progress.AfterStatus | runner/views/src/composables/useRunner.js:101-115 | applying a status keeps the number of states |
| Progress.AfterCurrentAdvances | runner/views/src/composables/useRunner.js:93-98 | moving to a node only advances states; all nodes before it end done or error; it is active unless it was done or error |
| Progress.AfterStatusAdvances | runner/views/src/composables/useRunner.js:101-115 | success finishes every node and keeps errors; failure marks the current node; any other status changes nothing |
| Progress.GrownTransitive | runner/views/src/composables/useRunner.js:66-87 | detail growth composes |
| Progress.SettledTransitive | runner/views/src/composables/useRunner.js:77-87 | settling composes |
| Progress.FinishDetailsUpToSettles | runner/views/src/composables/useRunner.js:96-102 | finishing nodes in turn only settles detail records |
| Progress.EndDetailsUpToSettles | runner/views/src/composables/useRunner.js:133-147 | the `end` pass settles every record: set times and errors kept, logs only appended |
| Progress.EndDetailsUpToFinish | runner/views/src/composables/useRunner.js:133-147 | the `end` pass leaves each reached node's log with a completion entry |
| Progress.EndDetailFinishes | runner/views/src/composables/useRunner.js:144-145 | after the `end` pass a record has a completion entry |
| Progress.HasFinishKept | runner/views/src/composables/useRunner.js:144 | a completion entry stays once the log grows |
| Progress.EndDetailIdempotent | runner/views/src/composables/useRunner.js:138-145 | a second `end` pass changes nothing |
| Progress.MoveDetailsGrow | runner/views/src/composables/useRunner.js:93-97 | moving to a node only grows detail records |
| Progress.StatusDetailsGrow | runner/views/src/composables/useRunner.js:101-112 | applying a status only grows detail records, and success settles them |
| Progress.AllGrownTransitive | runner/views/src/composables/useRunner.js:59-118 | growth of all records composes |
| Progress.AdvancedTransitive | runner/views/src/composables/useRunner.js:59-118 | advancement of the node states composes |
| Progress.NodeDetails.constructor | runner/views/src/composables/useRunner.js:13 | no detail records |
| Progress.Runner.constructor | runner/views/src/composables/useRunner.js:5-13 | empty log, not busy, no stream, empty metadata, idle progress |
| Progress.Runner.ResetProgress | runner/views/src/composables/useRunner.js:23-31 | every node pending at index 0, idle, one pending record per node key; nothing else changes |
| Progress.Runner.ClientLog | runner/views/src/composables/useRunner.js:18-20 | one client entry is appended; nothing else changes |
| Progress.Runner.Start | runner/views/src/composables/useRunner.js:45-170 | busy: nothing, nothing posted; otherwise posts the selected or sample workflow with the idle policy; success opens the stream and resets progress, with one pending record per node key; failure logs and clears busy |
| Progress.Runner.OnError | runner/views/src/composables/useRunner.js:161 | the break is logged, the stream closed, busy cleared |
| Progress.Runner.StartNodeAt | runner/views/src/composables/useRunner.js:66-76 | only the node's state may move to active, and its record is started |
| Progress.Runner.FinishNodeAt | runner/views/src/composables/useRunner.js:77-87 | only the node's state may move to done, and its record is finished |
| Progress.Runner.FinishUpTo | runner/views/src/composables/useRunner.js:96-102 | the loop finishes nodes below n in order |
| Progress.Runner.MoveTo | runner/views/src/composables/useRunner.js:93-98 | the states and records after moving to a node |
| Progress.Runner.ApplyStatus | runner/views/src/composables/useRunner.js:101-115 | the states and records after the reported status |
| Progress.Runner.OnWfState | runner/views/src/composables/useRunner.js:62-118 | without a node list nothing changes; otherwise move to the current node, then apply the status |
| Progress.Runner.OnWfMeta | runner/views/src/composables/useRunner.js:119-124 | the metadata is replaced and the progress reset, running |
| Progress.Runner.EndNodes | runner/views/src/composables/useRunner.js:133-147 | the `end` loop finishes every node and its record |
| Progress.Runner.OnEntry | runner/views/src/composables/useRunner.js:125-159 | logged; `end` finishes everything and succeeds; a stop hint stops; `end`, `error` and stop hints close the stream |
| Progress.Runner.OnData | runner/views/src/composables/useRunner.js:59-160 | null or ping changes nothing; `wfstate` with data has exactly the `wfstate` effect, `wfmeta` with metadata the `wfmeta` reset, and every other message (a `wfstate` without data included) the log-entry effect; every message but `wfmeta` only advances node states and only grows records; the selected workflow stays |

## Left out

- The HTTP framework: routing, JSON body parsing, static files, `/demo`, `/` and the health endpoint. The request-logging middleware of runner/src/web/app.js:18-25 is left out as well. Only the request colouring of runner/src/core/logger.js is modelled.
- `runWorkflow` (runner/src/core/run.js) is not part of this model. A run's background work appears only through `RunApi.App.Log` and `RunApi.App.Complete`. The `finishPolicy` and `idleMs` it is given are unused there.
- Concurrency: the background function is an atomic step after its synchronous prefix, and event-loop interleavings beyond that are not modelled.
- `RunApi.App.Complete` requires the run to be running. That is the state `Create` leaves it in and nothing else changes a status; a second run under a colliding id is not modelled while the first is still running.
- Run ids (`nanoid`), timestamps and `Date.now()` are parameters; a colliding id replaces the record, as `initRun` does, and the streams of the replaced record are no longer tracked.
- `pushLog` also prints the entry with `printSseEntry` (runner/src/core/store.js:26). Console output is modelled only as the line `Logger.PrintSseEntry` returns.
- `RunApi.SelectWorkflow`: `path.join` normalisation of the file reference is not modelled. The readable files are given by reference, and reading or parsing errors are folded into "not in the map".
- `RunApi.App.GetAsWritten`: the serialisation failure is modelled as the 500 outcome, not as the error text Express sends.
- JSON text: `JSON.stringify` of entries and payloads is not modelled; a write carries the entry value.
- `Config.ToNumber` computes only integer numerals. Other texts (fractions, exponents, hex, `Infinity`, `NaN`) are kept as `NotInteger` without a value.
- `Config.PersistRunProfile` and `Config.NoSandbox` are plain comparisons and carry no contract.
- Paths (`runnerRoot`, `workflowsDir`, `publicDir`, `buildDir`) and `fileURLToPath` in runner/src/web/config.js are file-system plumbing. The `try`/`catch` around `loadEnvFile` is modelled as a file that is absent or unreadable having no lines.
- `launchContext`, `attachLogging` and `openBridgePage` in runner/src/core/browser.js drive Playwright and are not modelled.
- `ExtensionLookup.HostOf` takes the authority up to the first `/`, `?` or `#`. It does not model URL parsing failures, user info or ports, which extension URLs do not carry.
- `ExtensionLookup.FindExtensionIdFromProfile`: an unreadable directory throws the file system's own error in the source. Its text is not modelled (the result is a fixed message), and a manifest that cannot be read counts as not matching, as its `try` does.
- The CDP and profile polling loops read a clock that is given as a sequence of readings, one per pass; the 200 ms delay between passes is not modelled.
- `Trigger.TriggerViaExecutePage`: the rejection of `page.waitForFunction` is an input (its error when the runtime does not show up). A rejected `page.evaluate` is modelled as one whose function did not run, so nothing is sent; a rejection after the message left is not distinguished. The storage listener that keeps emitting state lines after the trigger is modelled by `Trigger.Emit` for one state value, not as a subscription.
- `Trigger.Evaluate` returns the page function's result; `String(e.message)` of a thrown error is an input text.
- `Logger.ToStr` renders integers only, as `Json` has no fractional numbers.
- The `logger` object (`info`, `warn`, `error`, `link`, `dim`) is `Logger.Wrap` with a fixed colour plus `console` output. The latter and `printStartupBanner` are output only.
- `Progress.Runner`: `loadWorkflows`, `stopStream`, `clearLogs` and the EventSource plumbing are not modelled. The stream is the `streamOpen` flag.
- `Progress.Runner`: the mirror of the detail map into `globalThis.__nodeDetails` is not modelled.
- `Progress.Runner`: one clock reading per message stands for the several `new Date()` calls of one handler.
- `Progress.Meta` keeps a node list only when `nodes` is an array. A `wfmeta` whose `nodes` is some other truthy value would make the source's `map` throw; it is treated as having no nodes.
- `BlockMessages.DetectedLanguage` lower-cases ASCII letters only. No other character lower-cases to `e` or `n`, so the English/Chinese choice is unaffected.
- `BlockMessages.BlockMessage`: locale files are an abstract map from key to compiled message (text pieces and named slots); their contents are not modelled.
- `BlockMessages.Interpolate`: block properties are strings. Non-string values, and keys that resolve to inherited object properties, are not modelled.

## Findings

| source | as written | input that shows it | evidently intended | confidence | as-written member | corrected member |
|---|---|---|---|---|---|---|
| runner/src/web/app.js:108-112 | `res.json(s)` serialises the stored record, including `__listeners`, whose entries are live HTTP responses with circular references | a run with one open event stream (`RunApi.App.Subscribe` returning true), then GET /api/runs/:id: serialisation throws and the request fails with 500 | answer with the run's public fields (id, status, times, error, logs) whether or not a stream is attached | high, not executed | RunApi.App.GetAsWritten | RunApi.App.Get |

=== FILE: app.dfy ===
/** The run endpoints of runner/src/web/app.js, without the HTTP framework:
    POST /api/runs (admission under the shared-profile lock, input
    validation, the run's lifecycle), GET /api/runs/:id and the event stream
    GET /api/runs/:id/stream.

    The work a run does in the background (`runWorkflow`) is not modelled;
    what it can do to the run is: log through the store (`Log`), and end,
    normally or by throwing (`Complete`). JavaScript executes the
    background function synchronously up to its first `await`, before the
    handler answers, so `Create` includes taking the lock, the `running`
    status and the first log entry. */
module RunApi {
  import opened Common
  import opened JsValues
  import opened RunStore
  import Config

  /** The fields of the request body that decide admission (the others are
      handed on to `runWorkflow`). */
  datatype CreateBody = CreateBody(workflow: Option<Json>, workflowFile: Option<Json>)

  /** The workflow definition the request selects, or why it is refused.
      `Crash` is `path.join` throwing on a file reference that is not a
      string, which the handler's outer `catch` answers with 500. */
  datatype Selection = Selected(wf: Json) | Invalid(code: int, message: string) | Crash

  datatype CreateResponse = Accepted(runId: RunId) | Rejected(code: int, message: string) | ServerError

  /** How the background work ended: normally, or by throwing an error
      whose message (`String(err?.message || err)`) is given. */
  datatype Outcome = Finished | Threw(message: string)

  /** What GET /api/runs/:id answers with. */
  datatype Snapshot = Snapshot(
    id: RunId, status: Status, createdAt: string, endedAt: Option<string>,
    error: Option<string>, logs: seq<LogEntry>, lastLogAt: Option<string>)

  datatype GetResponse = NotFound | Found(snapshot: Snapshot) | GetFailed

  const BusyMessage: string :=
    "Runner busy: another run is using the shared profile. Set PROFILE_MODE=per-run to allow concurrent runs."
  const LaunchText: string := "Launching Chromium and loading extension..."
  const FinishText: string := "Run finished"

  /** The workflow a create request runs: an inline workflow wins over a
      file reference; a reference must name a `.json` file that can be read;
      a falsy workflow counts as none. `files` holds the readable workflow
      files by reference (a reference not in it fails to read or parse). */
  function SelectWorkflow(body: CreateBody, files: map<string, Json>): (r: Selection)
    ensures Present(body.workflow) ==> r == Selected(body.workflow.value)
    ensures (!Present(body.workflow) && Present(body.workflowFile) && body.workflowFile.value.Str?
             && EndsWith(body.workflowFile.value.s, ".json") && body.workflowFile.value.s in files
             && Truthy(files[body.workflowFile.value.s]))
            ==> r == Selected(files[body.workflowFile.value.s])
    ensures r.Crash? <==> !Present(body.workflow) && Present(body.workflowFile) && !body.workflowFile.value.Str?
    ensures r.Selected? ==> Truthy(r.wf)
    ensures r.Invalid? ==> r.code == 400
  {
    if Present(body.workflow) then Selected(body.workflow.value)
    else if Present(body.workflowFile) then
      match body.workflowFile.value
      case Str(name) =>
        if !EndsWith(name, ".json") then Invalid(400, "Invalid workflow file")
        else if name !in files then Invalid(400, "workflowFile not found")
        else if !Truthy(files[name]) then Invalid(400, "Missing workflow or workflowFile")
        else Selected(files[name])
      case _ => Crash
    else Invalid(400, "Missing workflow or workflowFile")
  }

  /** The three ways a request is refused with 400, each exactly when its
      condition holds and nothing earlier applies. */
  lemma SelectWorkflowErrors(body: CreateBody, files: map<string, Json>)
    ensures SelectWorkflow(body, files) == Invalid(400, "Missing workflow or workflowFile") <==>
      !Present(body.workflow) &&
      (!Present(body.workflowFile)
       || (body.workflowFile.value.Str? && EndsWith(body.workflowFile.value.s, ".json")
           && body.workflowFile.value.s in files && !Truthy(files[body.workflowFile.value.s])))
    ensures SelectWorkflow(body, files) == Invalid(400, "Invalid workflow file") <==>
      !Present(body.workflow) && Present(body.workflowFile) && body.workflowFile.value.Str?
      && !EndsWith(body.workflowFile.value.s, ".json")
    ensures SelectWorkflow(body, files) == Invalid(400, "workflowFile not found") <==>
      !Present(body.workflow) && Present(body.workflowFile) && body.workflowFile.value.Str?
      && EndsWith(body.workflowFile.value.s, ".json") && body.workflowFile.value.s !in files
  {
    var m := "Missing workflow or workflowFile";
    var i := "Invalid workflow file";
    var n := "workflowFile not found";
    assert m != i && m != n && i != n by {
      assert m[0] != i[0] && m[0] != n[0] && i[0] != n[0];
    }
  }

  /** Shared mode: the lock is held exactly while some run is running, and
      then by one run only. Per-run mode: the lock is never taken. */
  ghost predicate LockOk(mode: Config.ProfileMode, lock: bool, runs: map<RunId, Run>) {
    (mode == Config.PerRun ==> !lock)
    && (mode == Config.Shared ==>
          (lock <==> exists id :: id in runs && runs[id].status == Running)
          && (forall a, b :: (a in runs && b in runs && runs[a].status == Running && runs[b].status == Running) ==> a == b))
  }

  /** Every open stream has received exactly the log of the run it follows,
      in order, and is registered once with that run; every registered
      listener is such a stream. */
  ghost predicate StreamsOk(runs: map<RunId, Run>, sent: seq<Write>, streams: map<SinkId, RunId>) {
    (forall s :: s in streams ==>
       streams[s] in runs && s in runs[streams[s]].listeners && Received(sent, s) == runs[streams[s]].logs)
    && (forall id :: id in runs ==> NoDuplicates(runs[id].listeners))
    && (forall id, i :: id in runs && 0 <= i < |runs[id].listeners| ==>
          runs[id].listeners[i] in streams && streams[runs[id].listeners[i]] == id)
  }

  /** A listener of a run is a stream that follows that run. */
  lemma ListenerFollows(runs: map<RunId, Run>, sent: seq<Write>, streams: map<SinkId, RunId>, id: RunId, s: SinkId)
    requires StreamsOk(runs, sent, streams) && id in runs && s in runs[id].listeners
    ensures s in streams && streams[s] == id
  {
    var i :| 0 <= i < |runs[id].listeners| && runs[id].listeners[i] == s;
  }

  /** The record after `pushLog(id, e)`. */
  function Appended(r: Run, e: LogEntry): (r': Run)
    ensures r'.logs == r.logs + [e] && r'.listeners == r.listeners && r'.status == r.status
  {
    r.(logs := r.logs + [e], lastLogAt := Some(e.ts))
  }

  /** `pushLog` keeps every stream in step with its run: the entry reaches
      each stream of the run once, and no other stream. */
  lemma AppendKeepsStreams(runs: map<RunId, Run>, sent: seq<Write>, streams: map<SinkId, RunId>, id: RunId, e: LogEntry)
    requires StreamsOk(runs, sent, streams) && id in runs
    ensures StreamsOk(runs[id := Appended(runs[id], e)], sent + Fanout(runs[id].listeners, e), streams)
  {
    var runs' := runs[id := Appended(runs[id], e)];
    var sent' := sent + Fanout(runs[id].listeners, e);
    forall s | s in streams
      ensures Received(sent', s) == runs'[streams[s]].logs
    {
      ReceivedAppend(sent, Fanout(runs[id].listeners, e), s);
      FanoutExactlyOnce(runs[id].listeners, e, s);
      if s in runs[id].listeners {
        ListenerFollows(runs, sent, streams, id, s);
      }
    }
  }

  /** Changing what a run record holds besides its log and its listeners
      (status, end time, error) leaves every stream in step. */
  lemma RecordKeepsStreams(runs: map<RunId, Run>, sent: seq<Write>, streams: map<SinkId, RunId>, id: RunId, r: Run)
    requires StreamsOk(runs, sent, streams) && id in runs
    requires r.logs == runs[id].logs && r.listeners == runs[id].listeners
    ensures StreamsOk(runs[id := r], sent, streams)
  {
  }

  /** A fresh record under id (no listeners) orphans the streams that
      followed the record it replaces, and keeps every other stream. */
  lemma InitKeepsStreams(runs: map<RunId, Run>, sent: seq<Write>, streams: map<SinkId, RunId>, id: RunId, r: Run)
    requires StreamsOk(runs, sent, streams) && r.listeners == []
    ensures StreamsOk(runs[id := r], sent, Orphaned(streams, id))
  {
  }

  /** Registering a new stream and writing it the backlog puts it in step
      with its run, and disturbs no other stream. */
  lemma SubscribeKeepsStreams(runs: map<RunId, Run>, sent: seq<Write>, streams: map<SinkId, RunId>, id: RunId, sink: SinkId)
    requires StreamsOk(runs, sent, streams) && id in runs
    requires sink !in streams && Received(sent, sink) == []
    ensures StreamsOk(runs[id := runs[id].(listeners := runs[id].listeners + [sink])],
                      sent + BacklogWrites(sink, runs[id].logs), streams[sink := id])
  {
    var ls := runs[id].listeners;
    var ls' := ls + [sink];
    var runs' := runs[id := runs[id].(listeners := ls')];
    var sent' := sent + BacklogWrites(sink, runs[id].logs);
    var streams' := streams[sink := id];
    if sink in ls {
      ListenerFollows(runs, sent, streams, id, sink);
    }
    assert NoDuplicates(ls') by {
      forall i, j | 0 <= i < j < |ls'| ensures ls'[i] != ls'[j] {
        if j == |ls| {
          assert ls'[i] in ls;
        }
      }
    }
    forall t | t in streams'
      ensures Received(sent', t) == runs'[streams'[t]].logs
    {
      ReceivedAppend(sent, BacklogWrites(sink, runs[id].logs), t);
      ReceivedBacklog(sink, runs[id].logs, t);
    }
    forall k, i | k in runs' && 0 <= i < |runs'[k].listeners|
      ensures runs'[k].listeners[i] in streams' && streams'[runs'[k].listeners[i]] == k
    {
      if k == id && i < |ls| {
        assert runs'[k].listeners[i] == ls[i];
      }
    }
  }

  /** Removing a stream from the run it follows keeps every remaining
      stream in step. */
  lemma CloseKeepsStreams(runs: map<RunId, Run>, sent: seq<Write>, streams: map<SinkId, RunId>, id: RunId, sink: SinkId)
    requires StreamsOk(runs, sent, streams) && id in runs && sink in streams && streams[sink] == id
    ensures StreamsOk(runs[id := runs[id].(listeners := Without(runs[id].listeners, sink))], sent, streams - {sink})
  {
    var runs' := runs[id := runs[id].(listeners := Without(runs[id].listeners, sink))];
    var streams' := streams - {sink};
    WithoutKeepsListeners(runs, sent, streams, id, sink);
    forall s | s in streams'
      ensures streams'[s] in runs' && s in runs'[streams'[s]].listeners
      ensures Received(sent, s) == runs'[streams'[s]].logs
    {
      assert streams'[s] == streams[s];
    }
    forall k, i | k in runs' && 0 <= i < |runs'[k].listeners|
      ensures runs'[k].listeners[i] in streams' && streams'[runs'[k].listeners[i]] == k
    {
      if k != id {
        var t := runs[k].listeners[i];
        assert t != sink;
      }
    }
    assert forall k :: k in runs' ==> NoDuplicates(runs'[k].listeners);
  }

  /** Removing, from a run, a response that does not follow it changes
      nothing that a stream can observe. */
  lemma CloseOtherKeepsStreams(runs: map<RunId, Run>, sent: seq<Write>, streams: map<SinkId, RunId>, id: RunId, sink: SinkId)
    requires StreamsOk(runs, sent, streams) && id in runs && !(sink in streams && streams[sink] == id)
    ensures runs[id].(listeners := Without(runs[id].listeners, sink)) == runs[id]
  {
    var ls := runs[id].listeners;
    if sink in ls {
      ListenerFollows(runs, sent, streams, id, sink);
    }
    WithoutAbsent(ls, sink);
  }

  /** What is left of a run's listeners still follows the run, once each. */
  lemma WithoutKeepsListeners(runs: map<RunId, Run>, sent: seq<Write>, streams: map<SinkId, RunId>, id: RunId, sink: SinkId)
    requires StreamsOk(runs, sent, streams) && id in runs
    ensures NoDuplicates(Without(runs[id].listeners, sink))
    ensures forall i :: 0 <= i < |Without(runs[id].listeners, sink)| ==>
      Without(runs[id].listeners, sink)[i] in streams - {sink} && streams[Without(runs[id].listeners, sink)[i]] == id
  {
    var ls := runs[id].listeners;
    WithoutNoDuplicates(ls, sink);
    var ls' := Without(ls, sink);
    forall i | 0 <= i < |ls'|
      ensures ls'[i] in streams - {sink} && streams[ls'[i]] == id
    {
      assert ls'[i] in ls;
      ListenerFollows(runs, sent, streams, id, ls'[i]);
    }
  }

  /** A heartbeat carries no log entry, so no stream's log changes. */
  lemma PingKeepsStreams(runs: map<RunId, Run>, sent: seq<Write>, streams: map<SinkId, RunId>, sink: SinkId, ts: string)
    requires StreamsOk(runs, sent, streams)
    ensures StreamsOk(runs, sent + [Ping(sink, ts)], streams)
  {
    forall t | t in streams
      ensures Received(sent + [Ping(sink, ts)], t) == Received(sent, t)
    {
      assert (sent + [Ping(sink, ts)])[..|sent|] == sent;
    }
  }

  /** Admission: with the lock free, a new running record takes it (shared
      mode) and is then the only running run. */
  lemma CreateKeepsLock(mode: Config.ProfileMode, lock: bool, runs: map<RunId, Run>, id: RunId, r: Run)
    requires LockOk(mode, lock, runs) && !(mode == Config.Shared && lock) && r.status == Running
    ensures LockOk(mode, mode == Config.Shared, runs[id := r])
  {
    if mode == Config.Shared {
      assert id in runs[id := r] && runs[id := r][id].status == Running;
    }
  }

  /** The streams that remain once the record under id is replaced. */
  function Orphaned(streams: map<SinkId, RunId>, id: RunId): (r: map<SinkId, RunId>)
    ensures forall s :: s in r <==> s in streams && streams[s] != id
    ensures forall s :: s in r ==> r[s] == streams[s]
  {
    map s | s in streams && streams[s] != id :: streams[s]
  }

  /** Accepting a run keeps both invariants: the new record is the only
      running run when the lock is taken, and no stream follows it yet. */
  lemma LaunchKeeps(mode: Config.ProfileMode, lock: bool, runs: map<RunId, Run>, sent: seq<Write>,
                    streams: map<SinkId, RunId>, id: RunId, createdAt: string, ts: string)
    requires LockOk(mode, lock, runs) && StreamsOk(runs, sent, streams) && !(mode == Config.Shared && lock)
    ensures LockOk(mode, mode == Config.Shared, runs[id := Launched(id, createdAt, ts)])
    ensures StreamsOk(runs[id := Launched(id, createdAt, ts)], sent, Orphaned(streams, id))
    ensures runs[id := NewRun(id, createdAt)][id := NewRun(id, createdAt).(status := Running)][id :=
              Appended(NewRun(id, createdAt).(status := Running), LogEntry("info", LaunchText, ts))]
            == runs[id := Launched(id, createdAt, ts)]
  {
    var r := Launched(id, createdAt, ts);
    CreateKeepsLock(mode, lock, runs, id, r);
    InitKeepsStreams(runs, sent, streams, id, r);
    assert [] + [LogEntry("info", LaunchText, ts)] == r.logs;
  }

  /** The end of a run releases the lock: it was the only running run. */
  lemma CompleteKeepsLock(mode: Config.ProfileMode, lock: bool, runs: map<RunId, Run>, id: RunId, r: Run)
    requires LockOk(mode, lock, runs) && id in runs && runs[id].status == Running && r.status != Running
    ensures LockOk(mode, false, runs[id := r])
  {
  }

  /** A change that keeps every run's status keeps the lock invariant. */
  lemma StatusKeepsLock(mode: Config.ProfileMode, lock: bool, runs: map<RunId, Run>, id: RunId, r: Run)
    requires LockOk(mode, lock, runs) && id in runs && r.status == runs[id].status
    ensures LockOk(mode, lock, runs[id := r])
  {
    if mode == Config.Shared && lock {
      var k :| k in runs && runs[k].status == Running;
      assert k in runs[id := r] && runs[id := r][k].status == Running;
    }
  }

  /** The server's state: the run store, the module-level `sharedProfileLock`
      and the profile mode it was started with. `streams` records, for the
      proof only, which run each open event stream follows. */
  class App {
    const mode: Config.ProfileMode
    const store: Store
    var sharedLock: bool
    ghost var streams: map<SinkId, RunId>

    ghost predicate Valid()
      reads this, store, store.wire
    {
      LockOk(mode, sharedLock, store.runs) && StreamsOk(store.runs, store.wire.sent, streams)
    }

    /** The server at start-up: no runs, the lock free. */
    constructor(mode: Config.ProfileMode)
      ensures Valid() && fresh(store) && fresh(store.wire)
      ensures this.mode == mode && store.runs == map[] && store.wire.sent == [] && !sharedLock
    {
      this.mode := mode;
      var wire := new Wire();
      store := new Store(wire);
      sharedLock := false;
      streams := map[];
    }

    /** POST /api/runs. In shared mode a request while the lock is held is
        refused with 409 and creates nothing; otherwise the request is
        validated, and an accepted run is registered under `runId`, takes
        the lock (shared mode), is `running` and has logged that Chromium
        is being launched. Every other run keeps its record. */
    method Create(body: CreateBody, files: map<string, Json>, runId: RunId, createdAt: string, ts: string)
      returns (resp: CreateResponse)
      requires Valid()
      modifies this, store, store.wire
      ensures Valid()
      ensures store.wire.sent == old(store.wire.sent)
      ensures old(mode == Config.Shared && sharedLock) ==>
        resp == Rejected(409, BusyMessage) && store.runs == old(store.runs) && sharedLock
      ensures !old(mode == Config.Shared && sharedLock) ==>
        match SelectWorkflow(body, files)
        case Selected(_) =>
          resp == Accepted(runId)
          && store.runs == old(store.runs)[runId := Launched(runId, createdAt, ts)]
          && sharedLock == (mode == Config.Shared)
        case Invalid(code, message) =>
          resp == Rejected(code, message) && store.runs == old(store.runs) && sharedLock == old(sharedLock)
        case Crash =>
          resp == ServerError && store.runs == old(store.runs) && sharedLock == old(sharedLock)
    {
      if mode == Config.Shared && sharedLock {
        return Rejected(409, BusyMessage);
      }
      var selection := SelectWorkflow(body, files);
      match selection {
        case Invalid(code, message) =>
          return Rejected(code, message);
        case Crash =>
          return ServerError;
        case Selected(_) =>
          Launch(runId, createdAt, ts);
          return Accepted(runId);
      }
    }

    /** The synchronous start of an accepted run: `initRun`, the lock,
        the `running` status and the first log entry. */
    method Launch(runId: RunId, createdAt: string, ts: string)
      requires Valid() && !(mode == Config.Shared && sharedLock)
      modifies this, store, store.wire
      ensures Valid()
      ensures store.wire.sent == old(store.wire.sent)
      ensures store.runs == old(store.runs)[runId := Launched(runId, createdAt, ts)]
      ensures sharedLock == (mode == Config.Shared)
    {
      ghost var runs := store.runs;
      ghost var sent := store.wire.sent;
      LaunchKeeps(mode, sharedLock, runs, sent, streams, runId, createdAt, ts);
      var state := store.InitRun(runId, createdAt);
      store.runs := store.runs[runId := state.(status := Running)];
      // Streams that followed a record under the same id are orphaned.
      streams := Orphaned(streams, runId);
      if mode == Config.Shared {
        sharedLock := true;
      }
      store.PushLog(runId, LogEntry("info", LaunchText, ts));
      assert store.wire.sent == sent;
      assert store.runs == runs[runId := Launched(runId, createdAt, ts)];
    }

    /** A log entry from the run's background work: appended through the
        store and delivered to every stream following the run. */
    method Log(runId: RunId, e: LogEntry)
      requires Valid()
      modifies store, store.wire
      ensures Valid()
      ensures runId !in old(store.runs) ==> store.runs == old(store.runs) && store.wire.sent == old(store.wire.sent)
      ensures runId in old(store.runs) ==>
        store.runs == old(store.runs)[runId := Appended(old(store.runs[runId]), e)]
        && store.wire.sent == old(store.wire.sent) + Fanout(old(store.runs[runId].listeners), e)
    {
      if runId in store.runs {
        AppendKeepsStreams(store.runs, store.wire.sent, streams, runId, e);
        StatusKeepsLock(mode, sharedLock, store.runs, runId, Appended(store.runs[runId], e));
      }
      store.PushLog(runId, e);
    }

    /** The end of the background function: success records `succeeded`,
        the end time and a final `end` entry; a thrown error records
        `failed`, the end time, the message as `error` and an `error` entry
        carrying the same text. Either way (`finally`) the shared lock is
        released. */
    method Complete(runId: RunId, outcome: Outcome, endedAt: string, ts: string)
      requires Valid()
      requires runId in store.runs && store.runs[runId].status == Running
      modifies this, store, store.wire
      ensures Valid()
      ensures !sharedLock
      ensures store.runs == old(store.runs)[runId := Ended(old(store.runs[runId]), outcome, endedAt, ts)]
      ensures store.wire.sent == old(store.wire.sent) + Fanout(old(store.runs[runId].listeners), EndEntry(outcome, ts))
    {
      var r := store.runs[runId];
      var ended, entry;
      match outcome {
        case Finished =>
          ended := r.(status := Succeeded, endedAt := Some(endedAt));
          entry := LogEntry("end", FinishText, ts);
        case Threw(message) =>
          ended := r.(status := Failed, error := Some(message), endedAt := Some(endedAt));
          entry := LogEntry("error", message, ts);
      }
      RecordKeepsStreams(store.runs, store.wire.sent, streams, runId, ended);
      CompleteKeepsLock(mode, sharedLock, store.runs, runId, ended);
      store.runs := store.runs[runId := ended];
      if mode == Config.Shared {
        sharedLock := false;
      }
      AppendKeepsStreams(store.runs, store.wire.sent, streams, runId, entry);
      StatusKeepsLock(mode, sharedLock, store.runs, runId, Appended(ended, entry));
      store.PushLog(runId, entry);
    }

    /** GET /api/runs/:id as written: the record itself is serialised, and
        with it the listener list, whose entries are HTTP responses; those
        hold circular references, so serialisation throws and the request
        fails with 500 whenever a stream is attached. */
    function GetAsWritten(id: RunId): (r: GetResponse)
      reads this, store
      ensures r.NotFound? <==> id !in store.runs
      ensures r.GetFailed? <==> id in store.runs && store.runs[id].listeners != []
      ensures !r.GetFailed? ==> r == Get(id)
    {
      if id !in store.runs then NotFound
      else if store.runs[id].listeners != [] then GetFailed
      else Found(SnapshotOf(store.runs[id]))
    }

    /** GET /api/runs/:id answering with the run's public fields: 404 for an
        unknown id, the snapshot otherwise. */
    function Get(id: RunId): (r: GetResponse)
      reads this, store
      ensures r.NotFound? <==> id !in store.runs
      ensures r.Found? ==> r.snapshot.id == store.runs[id].id && r.snapshot.status == store.runs[id].status
                           && r.snapshot.logs == store.runs[id].logs && r.snapshot.error == store.runs[id].error
      ensures r.Found? ==> r.snapshot.createdAt == store.runs[id].createdAt && r.snapshot.endedAt == store.runs[id].endedAt
                           && r.snapshot.lastLogAt == store.runs[id].lastLogAt
      ensures !r.GetFailed?
    {
      if id !in store.runs then NotFound else Found(SnapshotOf(store.runs[id]))
    }

    /** GET /api/runs/:id/stream. 404 for an unknown run; otherwise the
        response becomes a listener of the run first, and is then written
        the whole backlog, synchronously, so that nothing can be appended in
        between: afterwards it has received exactly the run's log. */
    method Subscribe(runId: RunId, sink: SinkId) returns (found: bool)
      requires Valid()
      requires sink !in streams && Received(store.wire.sent, sink) == []
      modifies this, store, store.wire
      ensures Valid()
      ensures found == (runId in old(store.runs))
      ensures !found ==> store.runs == old(store.runs) && store.wire.sent == old(store.wire.sent)
      ensures found ==>
        store.runs == old(store.runs)[runId := old(store.runs[runId]).(listeners := old(store.runs[runId].listeners) + [sink])]
        && streams == old(streams)[sink := runId]
        && store.wire.sent == old(store.wire.sent) + BacklogWrites(sink, old(store.runs[runId].logs))
      ensures found ==> GetAsWritten(runId) == GetFailed && Get(runId).Found?
    {
      var s := store.GetRun(runId);
      if s.None? {
        return false;
      }
      SubscribeKeepsStreams(store.runs, store.wire.sent, streams, runId, sink);
      StatusKeepsLock(mode, sharedLock, store.runs, runId,
                      store.runs[runId].(listeners := store.runs[runId].listeners + [sink]));
      var ok := store.AddListener(runId, sink);
      streams := streams[sink := runId];
      var logs := s.value.logs;
      for i := 0 to |logs|
        invariant store.runs == old(store.runs)[runId := old(store.runs[runId]).(listeners := old(store.runs[runId].listeners) + [sink])]
        invariant store.wire.sent == old(store.wire.sent) + BacklogWrites(sink, logs[..i])
        invariant sharedLock == old(sharedLock) && streams == old(streams)[sink := runId]
      {
        assert logs[..i + 1][..i] == logs[..i];
        store.wire.Send(Data(sink, logs[i]));
      }
      assert logs[..|logs|] == logs;
      return true;
    }

    /** The client went away: its response leaves the run's listeners. */
    method Close(runId: RunId, sink: SinkId)
      requires Valid()
      modifies this, store
      ensures Valid()
      ensures store.wire.sent == old(store.wire.sent)
      ensures runId !in old(store.runs) ==> store.runs == old(store.runs)
      ensures runId in old(store.runs) ==>
        store.runs == old(store.runs)[runId := old(store.runs[runId]).(listeners := Without(old(store.runs[runId].listeners), sink))]
    {
      if runId in store.runs {
        var r := store.runs[runId].(listeners := Without(store.runs[runId].listeners, sink));
        if sink in streams && streams[sink] == runId {
          CloseKeepsStreams(store.runs, store.wire.sent, streams, runId, sink);
          streams := streams - {sink};
        } else {
          CloseOtherKeepsStreams(store.runs, store.wire.sent, streams, runId, sink);
        }
        StatusKeepsLock(mode, sharedLock, store.runs, runId, r);
      }
      store.RemoveListener(runId, sink);
    }

    /** The heartbeat a stream gets every 15 seconds; it carries no log entry. */
    method Heartbeat(sink: SinkId, ts: string)
      requires Valid()
      modifies store.wire
      ensures Valid()
      ensures store.wire.sent == old(store.wire.sent) + [Ping(sink, ts)]
    {
      PingKeepsStreams(store.runs, store.wire.sent, streams, sink, ts);
      store.wire.Send(Ping(sink, ts));
    }
  }

  /** The record of a run that has just been accepted. */
  function Launched(id: RunId, createdAt: string, ts: string): (r: Run)
    ensures r.id == id && r.status == Running && r.listeners == [] && r.endedAt.None? && r.error.None?
    ensures r.logs == [LogEntry("info", LaunchText, ts)]
  {
    Run(id, Running, createdAt, None, None, [LogEntry("info", LaunchText, ts)], Some(ts), [])
  }

  /** The entry a run's end is logged with: `end` after success, `error`
      with the message after a throw. */
  function EndEntry(outcome: Outcome, ts: string): (e: LogEntry)
    ensures e.ts == ts
    ensures e.kind == "end" <==> outcome.Finished?
    ensures outcome.Threw? ==> e.kind == "error" && e.text == outcome.message
  {
    match outcome
    case Finished => LogEntry("end", FinishText, ts)
    case Threw(message) => LogEntry("error", message, ts)
  }

  /** The record a run ends with. */
  function Ended(r: Run, outcome: Outcome, endedAt: string, ts: string): (r': Run)
    ensures r'.status == (if outcome.Finished? then Succeeded else Failed)
    ensures r'.endedAt == Some(endedAt) && r'.lastLogAt == Some(ts)
    ensures r'.listeners == r.listeners && r'.id == r.id && r'.createdAt == r.createdAt
    ensures outcome.Finished? ==> r'.error == r.error && r'.logs == r.logs + [LogEntry("end", FinishText, ts)]
    ensures outcome.Threw? ==> r'.error == Some(outcome.message) && r'.logs == r.logs + [LogEntry("error", outcome.message, ts)]
    ensures r'.logs == r.logs + [EndEntry(outcome, ts)]
  {
    match outcome
    case Finished =>
      Appended(r.(status := Succeeded, endedAt := Some(endedAt)), LogEntry("end", FinishText, ts))
    case Threw(message) =>
      Appended(r.(status := Failed, error := Some(message), endedAt := Some(endedAt)), LogEntry("error", message, ts))
  }

  function SnapshotOf(r: Run): Snapshot {
    Snapshot(r.id, r.status, r.createdAt, r.endedAt, r.error, r.logs, r.lastLogAt)
  }

  /** The backlog writes of one subscription, in log order. */
  function BacklogWrites(sink: SinkId, logs: seq<LogEntry>): (w: seq<Write>)
    ensures |w| == |logs|
    ensures forall i :: 0 <= i < |logs| ==> w[i] == Data(sink, logs[i])
  {
    if logs == [] then [] else BacklogWrites(sink, logs[..|logs| - 1]) + [Data(sink, logs[|logs| - 1])]
  }

  /** The backlog goes to the subscribing response only, whole and in order. */
  lemma {:induction false} ReceivedBacklog(sink: SinkId, logs: seq<LogEntry>, t: SinkId)
    ensures Received(BacklogWrites(sink, logs), t) == if t == sink then logs else []
    decreases |logs|
  {
    if logs != [] {
      var init := logs[..|logs| - 1];
      ReceivedBacklog(sink, init, t);
      assert BacklogWrites(sink, logs)[..|logs| - 1] == BacklogWrites(sink, init);
      assert logs == init + [logs[|logs| - 1]];
    }
  }
}

=== FILE: browser.dfy ===
/** How the runner finds the id of the loaded extension and tidies the
    browser (runner/src/core/browser.js): first by asking the browser, over
    CDP, for its targets, and otherwise by scanning the profile directory
    for the extension's manifest. Also the closing of the extension's
    welcome pages.

    The CDP session, the file system and the clock are inputs: a poll's
    answer, a snapshot of the extensions directory, and the time elapsed
    at each check of the deadline. */
module ExtensionLookup {
  import opened Common
  import opened JsValues

  const ExtensionScheme: string := "chrome-extension://"
  const DefaultTimeoutMs: int := 15000
  const CdpFailure: string := "Failed to detect extension ID via CDP"
  const ProfileFailure: string := "Failed to find extension ID in user profile"

  // ---------------------------------------------------------------------
  // Lookup via CDP

  /** A `targetInfo` of `Target.getTargets`. */
  datatype Target = Target(kind: string, url: string)

  predicate IsExtensionTarget(t: Target) {
    t.kind == "service_worker" && StartsWith(t.url, ExtensionScheme)
  }

  /** `find` over the targets: the index of the first extension service
      worker, or -1. */
  function FirstExtension(targets: seq<Target>): (r: int)
    ensures -1 <= r < |targets|
    ensures r >= 0 ==> IsExtensionTarget(targets[r])
    ensures forall k :: 0 <= k < |targets| && (r == -1 || k < r) ==> !IsExtensionTarget(targets[k])
  {
    if targets == [] then -1
    else if IsExtensionTarget(targets[0]) then 0
    else
      var r := FirstExtension(targets[1..]);
      assert forall k :: 1 <= k < |targets| ==> targets[k] == targets[1..][k - 1];
      if r == -1 then -1 else r + 1
  }

  predicate IsDelimiter(c: char) {
    c == '/' || c == '?' || c == '#'
  }

  /** The longest prefix of s that contains no '/', '?' or '#'. */
  function Authority(s: string): (r: string)
    ensures |r| <= |s| && r == s[..|r|]
    ensures forall i :: 0 <= i < |r| ==> !IsDelimiter(r[i])
    ensures |r| < |s| ==> IsDelimiter(s[|r|])
  {
    if s == [] || IsDelimiter(s[0]) then [] else [s[0]] + Authority(s[1..])
  }

  /** `new URL(url).host` for a `chrome-extension:` URL: what follows
      "chrome-extension://" up to the path, query or fragment. */
  function HostOf(url: string): string
    requires StartsWith(url, ExtensionScheme)
  {
    Authority(url[|ExtensionScheme|..])
  }

  /** The host of an extension URL is the extension id it was built from. */
  lemma HostOfExtensionUrl(id: string, rest: string)
    requires forall i :: 0 <= i < |id| ==> !IsDelimiter(id[i])
    requires rest == [] || IsDelimiter(rest[0])
    ensures StartsWith(ExtensionScheme + id + rest, ExtensionScheme)
    ensures HostOf(ExtensionScheme + id + rest) == id
  {
    var url := ExtensionScheme + id + rest;
    assert url[..|ExtensionScheme|] == ExtensionScheme;
    assert url[|ExtensionScheme|..] == id + rest;
    AuthorityOf(id, rest);
  }

  lemma {:induction false} AuthorityOf(id: string, rest: string)
    requires forall i :: 0 <= i < |id| ==> !IsDelimiter(id[i])
    requires rest == [] || IsDelimiter(rest[0])
    ensures Authority(id + rest) == id
    decreases |id|
  {
    if id == [] {
      assert id + rest == rest;
    } else {
      assert (id + rest)[1..] == id[1..] + rest;
      AuthorityOf(id[1..], rest);
    }
  }

  /** What one poll of the targets gives: the CDP call failed, or its
      answer (`targetInfos`, possibly absent). */
  datatype Poll = Unanswered | Answered(targetInfos: Option<seq<Target>>)

  /** The time elapsed at a check of the deadline, and what a poll made
      right after it would give. */
  datatype Tick = Tick(elapsed: int, poll: Poll)

  /** The extension id one poll finds, if any. */
  function PollHost(p: Poll): Option<string> {
    if p.Unanswered? || p.targetInfos.None? then None
    else
      var i := FirstExtension(p.targetInfos.value);
      if i < 0 then None else Some(HostOf(p.targetInfos.value[i].url))
  }

  /** The outcome of the polls made in order: the first id found, or the
      failure once they are exhausted. */
  function CdpResult(polls: seq<Poll>): (r: Result<string, string>)
    ensures r.Err? <==> forall i :: 0 <= i < |polls| ==> PollHost(polls[i]).None?
    ensures r.Err? ==> r.error == CdpFailure
    ensures r.Ok? ==> exists i :: 0 <= i < |polls| && PollHost(polls[i]) == Some(r.value)
                                  && forall j :: 0 <= j < i ==> PollHost(polls[j]).None?
  {
    if polls == [] then Err(CdpFailure)
    else if PollHost(polls[0]).Some? then Ok(PollHost(polls[0]).value)
    else
      var r := CdpResult(polls[1..]);
      assert forall i :: 1 <= i < |polls| ==> polls[i] == polls[1..][i - 1];
      if r.Ok? then
        var i :| 0 <= i < |polls[1..]| && PollHost(polls[1..][i]) == Some(r.value)
                 && forall j :: 0 <= j < i ==> PollHost(polls[1..][j]).None?;
        assert PollHost(polls[i + 1]) == Some(r.value);
        r
      else r
  }

  /** The index of the first check at which the deadline has passed. */
  function Deadline(ticks: seq<Tick>, timeoutMs: int): (n: nat)
    requires exists i :: 0 <= i < |ticks| && ticks[i].elapsed >= timeoutMs
    ensures n < |ticks| && ticks[n].elapsed >= timeoutMs
    ensures forall j :: 0 <= j < n ==> ticks[j].elapsed < timeoutMs
  {
    if ticks[0].elapsed >= timeoutMs then 0
    else
      assert forall i :: 1 <= i < |ticks| ==> ticks[i] == ticks[1..][i - 1];
      Deadline(ticks[1..], timeoutMs) + 1
  }

  function PollsOf(ticks: seq<Tick>): (r: seq<Poll>)
    ensures |r| == |ticks| && forall i :: 0 <= i < |ticks| ==> r[i] == ticks[i].poll
  {
    seq(|ticks|, i requires 0 <= i < |ticks| => ticks[i].poll)
  }

  /** `findExtensionIdViaCDP`: while the deadline has not passed, poll the
      targets (a failed poll is ignored) and answer the host of the first
      extension service worker; after the deadline, fail. */
  method FindExtensionIdViaCdp(ticks: seq<Tick>, timeoutMs: int) returns (r: Result<string, string>)
    requires exists i :: 0 <= i < |ticks| && ticks[i].elapsed >= timeoutMs
    ensures r == CdpResult(PollsOf(ticks[..Deadline(ticks, timeoutMs)]))
  {
    var n := Deadline(ticks, timeoutMs);
    var polls := PollsOf(ticks[..n]);
    var i := 0;
    while ticks[i].elapsed < timeoutMs
      invariant 0 <= i <= n
      invariant CdpResult(polls) == CdpResult(polls[i..])
      decreases n - i
    {
      assert polls[i..][0] == ticks[i].poll;
      var p := ticks[i].poll;
      if p.Answered? && p.targetInfos.Some? {
        var infos := p.targetInfos.value;
        var k := FirstExtension(infos);
        if k >= 0 {
          return Ok(HostOf(infos[k].url));
        }
      }
      assert polls[i..][1..] == polls[i + 1..];
      i := i + 1;
    }
    assert polls[i..] == [];
    return Err(CdpFailure);
  }

  // ---------------------------------------------------------------------
  // Lookup in the profile directory

  /** What `readJSON` makes of `<id>/<version>/manifest.json`. */
  datatype ManifestFile = NoManifest | Unparsable | Parsed(value: Json)

  /** An entry of an extension's directory (a version directory, normally). */
  datatype VersionEntry = VersionEntry(name: string, isDir: bool, manifest: ManifestFile)

  /** The listing of an extension's directory, or the error reading it. */
  datatype VersionListing = Unreadable | Listed(entries: seq<VersionEntry>)

  /** An entry of `Default/Extensions` (an extension id directory, normally). */
  datatype IdEntry = IdEntry(name: string, isDir: bool, versions: VersionListing)

  /** The state of `Default/Extensions` during one pass. */
  datatype ExtensionsDir = Missing | RootUnreadable | RootListed(ids: seq<IdEntry>)

  /** What one pass over the directory gives. A read error of a listing
      is not caught: it ends the lookup with that error. */
  datatype Scan = Found(id: string) | Missed | ListingFailed

  /** `m && m.name === name && (!version || m.version === version)` */
  predicate ManifestMatches(m: Json, name: string, version: string) {
    Truthy(m) && Get(m, "name") == Some(Str(name)) && (version == "" || Get(m, "version") == Some(Str(version)))
  }

  predicate VersionMatches(v: VersionEntry, name: string, version: string) {
    v.isDir && v.manifest.Parsed? && ManifestMatches(v.manifest.value, name, version)
  }

  /** Whether some version directory holds a matching manifest. */
  predicate AnyVersionMatches(vs: seq<VersionEntry>, name: string, version: string) {
    exists j :: 0 <= j < |vs| && VersionMatches(vs[j], name, version)
  }

  /** One pass over the id directories, in listing order. */
  function ScanIds(ids: seq<IdEntry>, name: string, version: string): (r: Scan)
    ensures r.Found? ==> exists i :: 0 <= i < |ids| && ids[i].name == r.id && ids[i].isDir
                                     && ids[i].versions.Listed? && AnyVersionMatches(ids[i].versions.entries, name, version)
    ensures r.Missed? ==> forall i :: 0 <= i < |ids| && ids[i].isDir ==>
                            ids[i].versions.Listed? && !AnyVersionMatches(ids[i].versions.entries, name, version)
  {
    if ids == [] then Missed
    else
      assert forall i :: 1 <= i < |ids| ==> ids[i] == ids[1..][i - 1];
      var d := ids[0];
      if !d.isDir then ScanIds(ids[1..], name, version)
      else if d.versions.Unreadable? then ListingFailed
      else if AnyVersionMatches(d.versions.entries, name, version) then Found(d.name)
      else ScanIds(ids[1..], name, version)
  }

  function ScanDir(root: ExtensionsDir, name: string, version: string): Scan {
    match root
    case Missing => Missed
    case RootUnreadable => ListingFailed
    case RootListed(ids) => ScanIds(ids, name, version)
  }

  /** The id found is the first in listing order whose manifest matches:
      no directory before it matches. */
  lemma {:induction false} ScanIdsFirst(ids: seq<IdEntry>, name: string, version: string, i: nat)
    requires i < |ids| && ids[i].isDir && ids[i].versions.Listed? && AnyVersionMatches(ids[i].versions.entries, name, version)
    requires forall j :: 0 <= j < i && ids[j].isDir ==>
               ids[j].versions.Listed? && !AnyVersionMatches(ids[j].versions.entries, name, version)
    ensures ScanIds(ids, name, version) == Found(ids[i].name)
    decreases i
  {
    if i > 0 {
      assert forall j :: 1 <= j < |ids| ==> ids[j] == ids[1..][j - 1];
      ScanIdsFirst(ids[1..], name, version, i - 1);
    }
  }

  /** The inner loop over an extension's version directories: whether
      one of them holds a matching manifest. */
  method HasMatchingVersion(vs: seq<VersionEntry>, name: string, version: string) returns (b: bool)
    ensures b == AnyVersionMatches(vs, name, version)
  {
    for j := 0 to |vs|
      invariant forall k :: 0 <= k < j ==> !VersionMatches(vs[k], name, version)
    {
      var v := vs[j];
      if v.isDir && v.manifest.Parsed? && ManifestMatches(v.manifest.value, name, version) {
        return true;
      }
    }
    return false;
  }

  /** A pass over the extension directories, as the nested loops do it. */
  method ScanProfile(root: ExtensionsDir, name: string, version: string) returns (r: Scan)
    ensures r == ScanDir(root, name, version)
  {
    if root.Missing? {
      return Missed;
    }
    if root.RootUnreadable? {
      return ListingFailed;
    }
    var ids := root.ids;
    for i := 0 to |ids|
      invariant ScanIds(ids, name, version) == ScanIds(ids[i..], name, version)
    {
      assert ids[i..][1..] == ids[i + 1..];
      var d := ids[i];
      if d.isDir {
        if d.versions.Unreadable? {
          return ListingFailed;
        }
        var found := HasMatchingVersion(d.versions.entries, name, version);
        if found {
          return Found(d.name);
        }
      }
    }
    assert ids[|ids|..] == [];
    return Missed;
  }

  /** One pass of the profile lookup: the directory as it was, and the
      time elapsed after the pass. */
  datatype Pass = Pass(root: ExtensionsDir, elapsed: int)

  /** The outcome of the passes made in order until one finds the id or
      fails, or the deadline (strictly exceeded) stops them. */
  function ProfileResult(passes: seq<Pass>, name: string, version: string, timeoutMs: int): (r: Result<string, string>)
    decreases |passes|
  {
    if passes == [] then Err(ProfileFailure)
    else
      match ScanDir(passes[0].root, name, version)
      case Found(id) => Ok(id)
      case ListingFailed => Err("cannot read the extensions directory")
      case Missed =>
        if passes[0].elapsed > timeoutMs then Err(ProfileFailure)
        else ProfileResult(passes[1..], name, version, timeoutMs)
  }

  /** The first pass always happens, whatever the timeout: an extension
      already on disk is found even with a zero timeout. */
  lemma FirstPassAlwaysScans(passes: seq<Pass>, name: string, version: string, timeoutMs: int)
    requires passes != [] && ScanDir(passes[0].root, name, version).Found?
    ensures ProfileResult(passes, name, version, timeoutMs) == Ok(ScanDir(passes[0].root, name, version).id)
  {
  }

  /** The lookup fails with the timeout message exactly when no pass
      before the deadline finds or fails, and then it is after the first
      pass whose elapsed time exceeds the timeout. */
  lemma {:induction false} ProfileTimesOut(passes: seq<Pass>, name: string, version: string, timeoutMs: int, n: nat)
    requires n < |passes| && passes[n].elapsed > timeoutMs
    requires forall j :: 0 <= j < n ==> passes[j].elapsed <= timeoutMs
    ensures ProfileResult(passes, name, version, timeoutMs) == Err(ProfileFailure) <==>
      forall j :: 0 <= j <= n ==> ScanDir(passes[j].root, name, version).Missed?
    decreases n
  {
    if n > 0 && ScanDir(passes[0].root, name, version).Missed? {
      assert forall j :: 1 <= j < |passes| ==> passes[j] == passes[1..][j - 1];
      ProfileTimesOut(passes[1..], name, version, timeoutMs, n - 1);
      assert (forall j :: 0 <= j <= n ==> ScanDir(passes[j].root, name, version).Missed?) <==>
             (forall j :: 0 <= j <= n - 1 ==> ScanDir(passes[1..][j].root, name, version).Missed?);
    }
  }

  /** `findExtensionIdFromProfile`: scan, and stop on a find, on a listing
      error, or once the elapsed time exceeds the timeout; otherwise wait
      and scan again. */
  method FindExtensionIdFromProfile(passes: seq<Pass>, name: string, version: string, timeoutMs: int)
    returns (r: Result<string, string>)
    requires exists i :: 0 <= i < |passes| && passes[i].elapsed > timeoutMs
    ensures r == ProfileResult(passes, name, version, timeoutMs)
  {
    var i := 0;
    while true
      invariant 0 <= i < |passes|
      invariant forall j :: 0 <= j < i ==> passes[j].elapsed <= timeoutMs
      invariant ProfileResult(passes, name, version, timeoutMs) == ProfileResult(passes[i..], name, version, timeoutMs)
      decreases |passes| - i
    {
      var s := ScanProfile(passes[i].root, name, version);
      if s.Found? {
        return Ok(s.id);
      }
      if s.ListingFailed? {
        return Err("cannot read the extensions directory");
      }
      if passes[i].elapsed > timeoutMs {
        return Err(ProfileFailure);
      }
      assert passes[i..][1..] == passes[i + 1..];
      i := i + 1;
    }
  }

  // ---------------------------------------------------------------------
  // Welcome pages

  /** The page an extension opens on installation. */
  predicate IsWelcomePage(url: string, extId: string) {
    StartsWith(url, ExtensionScheme + extId + "/newtab.html")
  }

  /** An open page of the browser context. `closeFails` stands for a
      `close()` that rejects. */
  class Page {
    const url: string
    const closeFails: bool
    var closed: bool

    constructor(url: string, closeFails: bool)
      ensures this.url == url && this.closeFails == closeFails && !closed
    {
      this.url := url;
      this.closeFails := closeFails;
      closed := false;
    }

    /** `page.close()`: closes the page unless it fails. */
    method Close() returns (ok: bool)
      modifies this
      ensures ok == !closeFails
      ensures closed == (old(closed) || !closeFails)
    {
      if closeFails {
        return false;
      }
      closed := true;
      return true;
    }
  }

  /** `closeWelcomePages`: every welcome page of the extension is closed,
      a failure on one page notwithstanding; other pages stay as they are. */
  method CloseWelcomePages(pages: seq<Page>, extId: string)
    modifies set p | p in pages
    ensures forall p :: p in pages ==> p.closed == (old(p.closed) || (IsWelcomePage(p.url, extId) && !p.closeFails))
  {
    for i := 0 to |pages|
      invariant forall p :: p in pages[..i] ==> p.closed == (old(p.closed) || (IsWelcomePage(p.url, extId) && !p.closeFails))
      invariant forall p :: p in pages && p !in pages[..i] ==> p.closed == old(p.closed)
    {
      var p := pages[i];
      if IsWelcomePage(p.url, extId) {
        var ok := p.Close();
      }
      assert pages[..i + 1] == pages[..i] + [p];
    }
    assert pages[..|pages|] == pages;
  }
}

=== FILE: common.dfy ===
/** Option and Result wrappers, and the few string operations of JavaScript's
    String.prototype that the runner relies on (startsWith, endsWith, includes,
    indexOf, trim, toLowerCase restricted to ASCII). */
module Common {

  datatype Option<T> = None | Some(value: T)

  datatype Result<T, E> = Ok(value: T) | Err(error: E)

  /** `s.startsWith(p)` */
  predicate StartsWith(s: string, p: string) {
    |p| <= |s| && s[..|p|] == p
  }

  /** `s.endsWith(p)` */
  predicate EndsWith(s: string, p: string) {
    |p| <= |s| && s[|s| - |p|..] == p
  }

  /** A text framed by e and r after a prefix p starts with p and e, and
      ends with the tail t of the framed text and r. */
  lemma FramedEnds(p: string, e: string, h: string, t: string, r: string)
    ensures StartsWith(p + (e + (h + t) + r), p + e)
    ensures EndsWith(p + (e + (h + t) + r), t + r)
  {
    var line := p + (e + (h + t) + r);
    assert line == (p + e) + (h + (t + r));
    ConcatStarts(p + e, h + (t + r));
    assert line == ((p + e) + h) + (t + r);
    ConcatEnds((p + e) + h, t + r);
  }

  /** A concatenation starts with its first part... */
  lemma ConcatStarts(a: string, b: string)
    ensures StartsWith(a + b, a)
  {
    assert (a + b)[..|a|] == a;
  }

  /** ...and ends with its second. */
  lemma ConcatEnds(a: string, b: string)
    ensures EndsWith(a + b, b)
  {
    assert (a + b)[|a|..] == b;
  }

  /** `s.includes(p)`: p occurs somewhere in s */
  predicate Contains(s: string, p: string) {
    exists i :: 0 <= i <= |s| - |p| && OccursAt(s, p, i)
  }

  /** p occurs in s starting at position i */
  predicate OccursAt(s: string, p: string, i: int) {
    0 <= i <= |s| - |p| && s[i..i + |p|] == p
  }

  /** `s.indexOf(c)` for a one-character needle: the first position of c, or -1. */
  function IndexOf(s: string, c: char): (r: int)
    ensures -1 <= r < |s|
    ensures r == -1 <==> c !in s
    ensures 0 <= r ==> s[r] == c && c !in s[..r]
  {
    if |s| == 0 then -1
    else if s[0] == c then 0
    else
      var k := IndexOf(s[1..], c);
      if k == -1 then -1
      else
        assert s[..k + 1] == [s[0]] + s[1..][..k];
        k + 1
  }

  /** The characters JavaScript's `trim` removes: the WhiteSpace and
      LineTerminator productions of ECMAScript (space separators included). */
  predicate IsJsSpace(c: char) {
    c == ' ' || c == '\t' || c == '\n' || c == '\r' || c == '\U{0B}' || c == '\U{0C}'
    || c == '\U{A0}' || c == '\U{FEFF}' || c == '\U{1680}'
    || ('\U{2000}' <= c <= '\U{200A}') || c == '\U{2028}' || c == '\U{2029}'
    || c == '\U{202F}' || c == '\U{205F}' || c == '\U{3000}'
  }

  function TrimStart(s: string): string {
    if |s| > 0 && IsJsSpace(s[0]) then TrimStart(s[1..]) else s
  }

  function TrimEnd(s: string): string {
    if |s| > 0 && IsJsSpace(s[|s| - 1]) then TrimEnd(s[..|s| - 1]) else s
  }

  /** `s.trim()`: what is left of s once white space is removed from both ends. */
  function Trim(s: string): string {
    TrimEnd(TrimStart(s))
  }

  /** Trim removes characters from the two ends only, and only white space:
      what is left neither starts nor ends with white space. */
  lemma TrimShape(s: string)
    ensures |TrimStart(s)| <= |s| && TrimStart(s) == s[|s| - |TrimStart(s)|..]
    ensures |Trim(s)| <= |TrimStart(s)| && Trim(s) == TrimStart(s)[..|Trim(s)|]
    ensures Trim(s) == [] || (!IsJsSpace(Trim(s)[0]) && !IsJsSpace(Trim(s)[|Trim(s)| - 1]))
  {
    TrimStartShape(s);
    TrimEndShape(TrimStart(s));
  }

  lemma {:induction false} TrimStartShape(s: string)
    ensures |TrimStart(s)| <= |s| && TrimStart(s) == s[|s| - |TrimStart(s)|..]
    ensures TrimStart(s) == [] || !IsJsSpace(TrimStart(s)[0])
    decreases |s|
  {
    if |s| > 0 && IsJsSpace(s[0]) {
      TrimStartShape(s[1..]);
    }
  }

  lemma {:induction false} TrimEndShape(s: string)
    ensures |TrimEnd(s)| <= |s| && TrimEnd(s) == s[..|TrimEnd(s)|]
    ensures TrimEnd(s) == [] || !IsJsSpace(TrimEnd(s)[|TrimEnd(s)| - 1])
    decreases |s|
  {
    if |s| > 0 && IsJsSpace(s[|s| - 1]) {
      TrimEndShape(s[..|s| - 1]);
    }
  }

  /** Trimming the end of a string that starts with a non-space character
      leaves that character. */
  lemma {:induction false} TrimEndKeepsFirst(s: string)
    requires s != [] && !IsJsSpace(s[0])
    ensures TrimEnd(s) != [] && TrimEnd(s)[0] == s[0]
    decreases |s|
  {
    if |s| > 1 && IsJsSpace(s[|s| - 1]) {
      TrimEndKeepsFirst(s[..|s| - 1]);
    }
  }

  /** A string that neither starts nor ends with white space is its own trim. */
  lemma TrimUnchanged(s: string)
    requires s == [] || (!IsJsSpace(s[0]) && !IsJsSpace(s[|s| - 1]))
    ensures Trim(s) == s
  {
    assert TrimStart(s) == s;
    assert TrimEnd(s) == s;
  }

  /** Trimming the end of a + b, where a ends in a non-space character,
      trims b only. */
  lemma {:induction false} TrimEndAppend(a: string, b: string)
    requires a != [] && !IsJsSpace(a[|a| - 1])
    ensures TrimEnd(a + b) == a + TrimEnd(b)
    decreases |b|
  {
    if b != [] && IsJsSpace(b[|b| - 1]) {
      assert (a + b)[..|a + b| - 1] == a + b[..|b| - 1];
      TrimEndAppend(a, b[..|b| - 1]);
    }
  }

  /** A final white-space character makes no difference to the trim. */
  lemma {:induction false} TrimDropLastSpace(v: string)
    requires v != [] && IsJsSpace(v[|v| - 1])
    ensures Trim(v) == Trim(v[..|v| - 1])
    decreases |v|
  {
    var n := |v|;
    if IsJsSpace(v[0]) {
      if n > 1 {
        TrimDropLastSpace(v[1..]);
        assert v[1..][..n - 2] == v[..n - 1][1..];
      }
    }
  }

  /** Trimming the end first does not change the trim. */
  lemma {:induction false} TrimAfterTrimEnd(v: string)
    ensures Trim(TrimEnd(v)) == Trim(v)
    decreases |v|
  {
    if v != [] && IsJsSpace(v[|v| - 1]) {
      TrimAfterTrimEnd(v[..|v| - 1]);
      TrimDropLastSpace(v);
    }
  }

  function LowerChar(c: char): char {
    if 'A' <= c <= 'Z' then (c as int + 32) as char else c
  }

  /** `s.toLowerCase()` on the ASCII letters. */
  function LowerAscii(s: string): (r: string)
    ensures |r| == |s|
    ensures forall i :: 0 <= i < |s| ==> r[i] == LowerChar(s[i])
  {
    if s == [] then [] else [LowerChar(s[0])] + LowerAscii(s[1..])
  }
}

=== FILE: config.dfy ===
/** runner/src/web/config.js: the `.env` loader and the options derived from
    the process environment. The environment is a map from variable names to
    strings; a name that is not in the map is `undefined`. Files are given
    by their text, or `None` when they do not exist or cannot be read. */
module Config {
  import opened Common

  type Env = map<string, string>

  /** `process.env[k]` */
  function Var(env: Env, k: string): Option<string> {
    if k in env then Some(env[k]) else None
  }

  /** `text.split(/\r?\n/)`: pieces between line feeds, each without the
      carriage return that may precede its line feed. */
  function Lines(text: string): (r: seq<string>)
    ensures |r| >= 1
    ensures forall i :: 0 <= i < |r| ==> '\n' !in r[i]
    decreases |text|
  {
    var i := IndexOf(text, '\n');
    if i < 0 then [text]
    else
      var piece := WithoutCr(text[..i]);
      var rest := Lines(text[i + 1..]);
      assert forall j :: 1 <= j < 1 + |rest| ==> ([piece] + rest)[j] == rest[j - 1];
      [piece] + rest
  }

  /** Text without a line feed is one piece, kept whole: a carriage
      return splits only in front of a line feed. */
  lemma LinesSingle(a: string)
    requires '\n' !in a
    ensures Lines(a) == [a]
  {
  }

  /** The first piece is the text before the first line feed, without a
      carriage return that ends it; the rest is split in turn. */
  lemma LinesCons(a: string, b: string)
    requires '\n' !in a
    ensures Lines(a + "\n" + b) == [WithoutCr(a)] + Lines(b)
  {
    var t := a + "\n" + b;
    assert t[|a|] == '\n';
    assert t[..|a|] == a;
    assert t[|a| + 1..] == b;
  }

  /** `pieces.join('\n')` */
  function JoinLf(pieces: seq<string>): string {
    if pieces == [] then ""
    else if |pieces| == 1 then pieces[0]
    else pieces[0] + "\n" + JoinLf(pieces[1..])
  }

  /** Without carriage returns the split loses nothing: joining the pieces
      with line feeds gives the text back. */
  lemma {:induction false} LinesJoin(text: string)
    requires '\r' !in text
    ensures JoinLf(Lines(text)) == text
    decreases |text|
  {
    var i := IndexOf(text, '\n');
    if i >= 0 {
      var a, b := text[..i], text[i + 1..];
      assert text == a + "\n" + b;
      LinesCons(a, b);
      NoCrAround(text, i);
      LinesJoin(b);
      var rest := Lines(b);
      assert ([a] + rest)[1..] == rest;
    }
  }

  lemma NoCrAround(text: string, i: int)
    requires '\r' !in text && 0 <= i < |text|
    ensures '\r' !in text[..i] && '\r' !in text[i + 1..]
  {
    var b := text[i + 1..];
    assert forall j :: 0 <= j < i ==> text[..i][j] == text[j];
    assert forall j :: 0 <= j < |b| ==> b[j] == text[i + 1 + j];
  }

  /** A line without the carriage return that may end it. */
  function WithoutCr(line: string): (p: string)
    ensures '\n' !in line ==> '\n' !in p
    ensures '\r' !in line ==> p == line
  {
    if |line| > 0 && line[|line| - 1] == '\r' then line[..|line| - 1] else line
  }

  /** `val.slice(1, -1)` when val is wrapped in a matching pair of double or
      single quotes; otherwise val itself. */
  function Unquote(val: string): string {
    if (StartsWith(val, "\"") && EndsWith(val, "\"")) || (StartsWith(val, "'") && EndsWith(val, "'")) then
      (if |val| >= 2 then val[1..|val| - 1] else "")
    else val
  }

  /** One line of an env file: `None` when the line is skipped, otherwise
      the key and the value it assigns. */
  function ParseLine(line: string): Option<(string, string)> {
    ParseTrimmed(Trim(line))
  }

  /** The same, for the trimmed line l. */
  function ParseTrimmed(l: string): Option<(string, string)> {
    if l == [] || StartsWith(l, "#") then None
    else
      var eq := IndexOf(l, '=');
      if eq <= 0 then None else Some(SplitAt(l, eq))
  }

  /** The trimmed key before position eq, and the trimmed and unquoted
      value after it. */
  function SplitAt(l: string, eq: nat): (string, string)
    requires eq < |l|
  {
    (Trim(l[..eq]), Unquote(Trim(l[eq + 1..])))
  }

  /** Blank lines, comments, lines without `=` and lines that start with
      `=` are skipped; a key that is read is non-empty, holds no `=` and has
      no surrounding white space, so the value is everything after the
      first `=`. */
  lemma ParseLineSkips(line: string)
    ensures Trim(line) == [] || Trim(line)[0] == '#' ==> ParseLine(line) == None
    ensures IndexOf(Trim(line), '=') <= 0 ==> ParseLine(line) == None
    ensures ParseLine(line).Some? ==>
      var key := ParseLine(line).value.0;
      key != "" && '=' !in key && Trim(key) == key
  {
    var l := Trim(line);
    if l != [] && !StartsWith(l, "#") {
      var eq := IndexOf(l, '=');
      if eq > 0 {
        TrimShape(line);
        var key := Trim(l[..eq]);
        TrimKeepsFirst(l[..eq]);
        TrimInside(l[..eq]);
        TrimShape(l[..eq]);
        TrimUnchanged(key);
      }
    }
  }

  lemma TrimKeepsFirst(s: string)
    requires s != [] && !IsJsSpace(s[0])
    ensures Trim(s) != []
  {
    assert TrimStart(s) == s;
    TrimEndKeepsFirst(s);
  }

  lemma TrimInside(s: string)
    ensures forall c :: c in Trim(s) ==> c in s
  {
    TrimShape(s);
    var a := |s| - |TrimStart(s)|;
    forall c | c in Trim(s) ensures c in s {
      var k :| 0 <= k < |Trim(s)| && Trim(s)[k] == c;
      assert c == TrimStart(s)[k] == s[a + k];
    }
  }

  /** A key an env file can define: non-empty, no `=`, not a comment, no
      surrounding white space. */
  predicate WritableKey(k: string) {
    k != [] && '=' !in k && k[0] != '#' && !IsJsSpace(k[0]) && !IsJsSpace(k[|k| - 1])
  }

  /** The line `k="v"`. */
  function QuotedAssignment(k: string, v: string): string {
    k + "=" + "\"" + v + "\""
  }

  /** Writing `k="v"` and parsing it back gives k and v, whatever v holds
      (white space, `=`, quotes): one layer of quotes is stripped. */
  lemma ParseQuotedAssignment(k: string, v: string)
    requires WritableKey(k)
    ensures ParseLine(QuotedAssignment(k, v)) == Some((k, v))
  {
    var quoted := "\"" + v + "\"";
    assert QuotedAssignment(k, v) == k + "=" + quoted;
    ParseAssignment(k, quoted);
    TrimUnchanged(quoted);
    UnquoteQuoted(v);
  }

  /** The first `=` splits a line: for a key that can be written back,
      `k=v` reads as k and the trimmed, unquoted v, whatever v holds
      (further `=`, white space around it, quotes). */
  lemma ParseAssignment(k: string, v: string)
    requires WritableKey(k)
    ensures ParseLine(k + "=" + v) == Some((k, Unquote(Trim(v))))
  {
    var a := k + "=";
    var line := k + "=" + v;
    assert line == a + v;
    assert TrimStart(line) == line;
    TrimEndAppend(a, v);
    var l := a + TrimEnd(v);
    assert Trim(line) == l;
    assert l[0] == k[0];
    assert !StartsWith(l, "#") by { assert l[..1] != "#"; }
    assert l == k + ("=" + TrimEnd(v));
    IndexOfAfter(k, "=" + TrimEnd(v));
    assert l[..|k|] == k;
    assert l[|k| + 1..] == TrimEnd(v);
    TrimUnchanged(k);
    TrimAfterTrimEnd(v);
    assert ParseTrimmed(l) == Some(SplitAt(l, |k|));
  }

  lemma UnquoteQuoted(v: string)
    ensures Unquote("\"" + v + "\"") == v
  {
    var quoted := "\"" + v + "\"";
    assert quoted[..1] == "\"";
    assert quoted[|quoted| - 1..] == "\"";
    assert quoted[1..|quoted| - 1] == v;
  }

  /** The first `=` of k + rest is rest's first character when k has none. */
  lemma {:induction false} IndexOfAfter(k: string, rest: string)
    requires '=' !in k && rest != [] && rest[0] == '='
    ensures IndexOf(k + rest, '=') == |k|
    decreases |k|
  {
    if k != [] {
      assert (k + rest)[1..] == k[1..] + rest;
      IndexOfAfter(k[1..], rest);
    }
  }

  /** The value the first line defining k gives it, if any line does. */
  function FirstValue(lines: seq<string>, k: string): Option<string> {
    if lines == [] then None
    else
      var p := ParseLine(lines[0]);
      if p.Some? && p.value.0 == k then Some(p.value.1) else FirstValue(lines[1..], k)
  }

  /** The value of k after one more line: the earlier value if there is
      one, otherwise what the line assigns to k, if anything. */
  function Then(before: Option<string>, p: Option<(string, string)>, k: string): Option<string> {
    if before.Some? then before
    else if p.Some? && p.value.0 == k then Some(p.value.1)
    else None
  }

  lemma {:induction false} FirstValueSnoc(lines: seq<string>, line: string, k: string)
    ensures FirstValue(lines + [line], k) == Then(FirstValue(lines, k), ParseLine(line), k)
    decreases |lines|
  {
    if lines == [] {
      assert lines + [line] == [line];
      assert [line][1..] == [];
    } else {
      assert (lines + [line])[1..] == lines[1..] + [line];
      FirstValueSnoc(lines[1..], line, k);
    }
  }

  /** The lines of an env file; a missing or unreadable file has none. */
  function FileLines(file: Option<string>): seq<string> {
    if file.Some? then Lines(file.value) else []
  }

  /** `loadEnvFile`: every variable already set keeps its value; a variable
      that was not set gets the value of the first line defining it, and is
      left unset when no line does. */
  method LoadEnvFile(env: Env, file: Option<string>) returns (env': Env)
    ensures forall k :: k in env ==> k in env' && env'[k] == env[k]
    ensures forall k :: k !in env ==> Var(env', k) == FirstValue(FileLines(file), k)
  {
    env' := env;
    if file.None? {
      return;
    }
    var lines := Lines(file.value);
    for i := 0 to |lines|
      invariant forall k :: k in env ==> k in env' && env'[k] == env[k]
      invariant forall k :: k !in env ==> Var(env', k) == FirstValue(lines[..i], k)
    {
      var p := ParseLine(lines[i]);
      ghost var before := env';
      if p.Some? && p.value.0 !in env' {
        env' := env'[p.value.0 := p.value.1];
      }
      LoadStep(env, before, env', lines, i);
    }
    assert lines[..|lines|] == lines;
  }

  /** One pass of the loop in `loadEnvFile` keeps its invariant. */
  lemma LoadStep(env: Env, before: Env, after: Env, lines: seq<string>, i: int)
    requires 0 <= i < |lines|
    requires forall k :: k in env ==> k in before && before[k] == env[k]
    requires forall k :: k !in env ==> Var(before, k) == FirstValue(lines[..i], k)
    requires var p := ParseLine(lines[i]);
      after == if p.Some? && p.value.0 !in before then before[p.value.0 := p.value.1] else before
    ensures forall k :: k in env ==> k in after && after[k] == env[k]
    ensures forall k :: k !in env ==> Var(after, k) == FirstValue(lines[..i + 1], k)
  {
    assert lines[..i + 1] == lines[..i] + [lines[i]];
    forall k | k !in env ensures Var(after, k) == FirstValue(lines[..i + 1], k) {
      FirstValueSnoc(lines[..i], lines[i], k);
    }
  }

  /** NODE_ENV is `development` once `.env` has been loaded. */
  predicate Development(env: Env, dotEnv: Option<string>) {
    Var(env, "NODE_ENV") == Some("development")
    || ("NODE_ENV" !in env && FirstValue(FileLines(dotEnv), "NODE_ENV") == Some("development"))
  }

  /** The two loads at start-up: `.env`, then `.env.development` when
      NODE_ENV is `development` after the first load (so `.env` itself may
      switch it on). Neither load overrides the environment, and `.env` wins
      over `.env.development`. */
  method LoadStartupEnv(env: Env, dotEnv: Option<string>, devEnv: Option<string>) returns (env': Env)
    ensures forall k :: k in env ==> k in env' && env'[k] == env[k]
    ensures forall k :: k !in env && FirstValue(FileLines(dotEnv), k).Some? ==>
      Var(env', k) == FirstValue(FileLines(dotEnv), k)
    ensures forall k :: k !in env && FirstValue(FileLines(dotEnv), k).None? ==>
      Var(env', k) == (if Development(env, dotEnv) then FirstValue(FileLines(devEnv), k) else None)
  {
    var first := LoadEnvFile(env, dotEnv);
    var dev := Var(first, "NODE_ENV") == Some("development");
    env' := first;
    if dev {
      env' := LoadEnvFile(first, devEnv);
    }
    StartupLoads(env, first, env', FileLines(dotEnv), FileLines(devEnv), dev);
    assert dev <==> Development(env, dotEnv) by {
      if "NODE_ENV" in env {
        assert Var(first, "NODE_ENV") == Var(env, "NODE_ENV");
      }
    }
  }

  /** The two loads composed: the first file fills what the environment
      leaves unset, the second (when it is loaded) what both leave unset. */
  lemma StartupLoads(env: Env, first: Env, second: Env, lines1: seq<string>, lines2: seq<string>, dev: bool)
    requires forall k :: k in env ==> k in first && first[k] == env[k]
    requires forall k :: k !in env ==> Var(first, k) == FirstValue(lines1, k)
    requires dev ==> (forall k :: k in first ==> k in second && second[k] == first[k])
                     && (forall k :: k !in first ==> Var(second, k) == FirstValue(lines2, k))
    requires !dev ==> second == first
    ensures forall k :: k in env ==> k in second && second[k] == env[k]
    ensures forall k :: k !in env && FirstValue(lines1, k).Some? ==> Var(second, k) == FirstValue(lines1, k)
    ensures forall k :: k !in env && FirstValue(lines1, k).None? ==>
      Var(second, k) == (if dev then FirstValue(lines2, k) else None)
  {
    forall k | k !in env && FirstValue(lines1, k).None?
      ensures Var(second, k) == (if dev then FirstValue(lines2, k) else None)
    {
      assert Var(first, k) == None;
    }
  }

  // ---------------------------------------------------------------------
  // Options derived from the environment

  datatype ProfileMode = Shared | PerRun
  datatype FinishPolicy = Timeout | Idle | Triggered

  /** The string each option value is spelled as. */
  function ProfileModeName(m: ProfileMode): string {
    match m
    case Shared => "shared"
    case PerRun => "per-run"
  }

  function FinishPolicyName(p: FinishPolicy): string {
    match p
    case Timeout => "timeout"
    case Idle => "idle"
    case Triggered => "triggered"
  }

  /** `PROFILE_MODE`: per-run only for exactly `per-run`. */
  function ProfileModeOf(env: Env): ProfileMode {
    if Var(env, "PROFILE_MODE") == Some("per-run") then PerRun else Shared
  }

  /** `FINISH_POLICY`: `idle` or `triggered` only for exactly those strings. */
  function FinishPolicyOf(env: Env): FinishPolicy {
    var v := Var(env, "FINISH_POLICY");
    if v == Some("idle") then Idle
    else if v == Some("triggered") then Triggered
    else Timeout
  }

  /** Each option reads back the value that is written as its name, and
      every other string (or none) gives the default. */
  lemma ProfileModeNormalises(env: Env)
    ensures ProfileModeOf(env) == PerRun <==> Var(env, "PROFILE_MODE") == Some(ProfileModeName(PerRun))
    ensures forall m :: ProfileModeOf(env["PROFILE_MODE" := ProfileModeName(m)]) == m
    ensures ProfileModeOf(env["PROFILE_MODE" := ProfileModeName(ProfileModeOf(env))]) == ProfileModeOf(env)
  {
    assert ProfileModeName(Shared) != "per-run";
  }

  lemma FinishPolicyNormalises(env: Env)
    ensures FinishPolicyOf(env) != Timeout <==>
      Var(env, "FINISH_POLICY") == Some("idle") || Var(env, "FINISH_POLICY") == Some("triggered")
    ensures forall p :: FinishPolicyOf(env["FINISH_POLICY" := FinishPolicyName(p)]) == p
    ensures FinishPolicyOf(env) != Timeout ==> Var(env, "FINISH_POLICY") == Some(FinishPolicyName(FinishPolicyOf(env)))
  {
    assert FinishPolicyName(Timeout) != "idle" && FinishPolicyName(Timeout) != "triggered";
  }

  /** `OPEN_BRIDGE`: on unless set to exactly `false` (unset and empty mean on). */
  function OpenBridge(env: Env): (r: bool)
    ensures !r <==> Var(env, "OPEN_BRIDGE") == Some("false")
  {
    var v := Var(env, "OPEN_BRIDGE");
    if v.Some? && v.value != "" then v.value != "false" else true
  }

  /** `HEADLESS`: on only for exactly `true`. */
  function Headless(env: Env): (r: bool)
    ensures r <==> Var(env, "HEADLESS") == Some("true")
  {
    var v := Var(env, "HEADLESS");
    if v.Some? && v.value != "" then v.value == "true" else false
  }

  const DefaultHost: string := "0.0.0.0"

  /** `HOST`: the variable when non-empty, otherwise every interface. */
  function Host(env: Env): (r: string)
    ensures r != ""
    ensures Var(env, "HOST").Some? && Var(env, "HOST").value != "" ==> r == env["HOST"]
    ensures Var(env, "HOST").None? || Var(env, "HOST").value == "" ==> r == DefaultHost
  {
    var v := Var(env, "HOST");
    if v.Some? && v.value != "" then v.value else DefaultHost
  }

  /** `PERSIST_RUN_PROFILE` and `NO_SANDBOX` switches. */
  function PersistRunProfile(env: Env): bool {
    Var(env, "PERSIST_RUN_PROFILE") == Some("true")
  }

  function NoSandbox(env: Env): bool {
    Var(env, "NO_SANDBOX") == Some("true") || Var(env, "NO_SANDBOX") == Some("1")
  }

  const DevDebug: string := "pw:api"

  /** `PW_DEBUG`: the variable when it is set (even to the empty string);
      otherwise `pw:api` in development and off elsewhere. */
  function PlaywrightDebug(env: Env): (r: string)
    ensures "PW_DEBUG" in env ==> r == env["PW_DEBUG"]
    ensures "PW_DEBUG" !in env ==> (r != "" <==> Var(env, "NODE_ENV") == Some("development"))
    ensures "PW_DEBUG" !in env && Var(env, "NODE_ENV") == Some("development") ==> r == DevDebug
  {
    if "PW_DEBUG" in env then env["PW_DEBUG"]
    else if Var(env, "NODE_ENV") == Some("development") then DevDebug else ""
  }

  // ---------------------------------------------------------------------
  // Numbers

  /** The result of `Number(text)`: an integer for an optionally signed
      decimal numeral (white space around it allowed; blank text is 0), and
      `NotInteger` for every other text (NaN, fractions, exponents, hex,
      Infinity), whose value this model does not compute. */
  datatype NumberValue = Integer(n: int) | NotInteger(text: string)

  predicate IsDigit(c: char) {
    '0' <= c <= '9'
  }

  predicate AllDigits(s: string) {
    forall i :: 0 <= i < |s| ==> IsDigit(s[i])
  }

  function DigitsValue(s: string): (n: nat)
    requires AllDigits(s)
  {
    if s == [] then 0 else DigitsValue(s[..|s| - 1]) * 10 + (s[|s| - 1] as int - '0' as int)
  }

  /** The decimal numeral of n, without leading zeros. */
  function Decimal(n: nat): (s: string)
    ensures s != [] && AllDigits(s)
  {
    if n < 10 then [('0' as int + n) as char]
    else Decimal(n / 10) + [('0' as int + n % 10) as char]
  }

  lemma {:induction false} DecimalRoundTrip(n: nat)
    ensures DigitsValue(Decimal(n)) == n
  {
    if n >= 10 {
      var s := Decimal(n);
      assert s[..|s| - 1] == Decimal(n / 10);
      DecimalRoundTrip(n / 10);
    }
  }

  function ToNumber(text: string): NumberValue {
    var t := Trim(text);
    if t == [] then Integer(0)
    else if AllDigits(t) then Integer(DigitsValue(t))
    else if (t[0] == '+' || t[0] == '-') && |t| > 1 && AllDigits(t[1..]) then
      Integer(if t[0] == '-' then 0 - DigitsValue(t[1..]) else DigitsValue(t[1..]))
    else NotInteger(text)
  }

  /** `X ? Number(X) : fallback` */
  function NumberOr(env: Env, k: string, fallback: int): NumberValue {
    var v := Var(env, k);
    if v.Some? && v.value != "" then ToNumber(v.value) else Integer(fallback)
  }

  /** `PORT`, 3100 by default. */
  function Port(env: Env): NumberValue {
    NumberOr(env, "PORT", 3100)
  }

  /** `IDLE_MS`, 3000 by default. */
  function IdleMs(env: Env): NumberValue {
    NumberOr(env, "IDLE_MS", 3000)
  }

  /** The numeric options fall back to their defaults when unset or empty. */
  lemma NumericDefaults(env: Env)
    ensures Var(env, "PORT").None? || Var(env, "PORT") == Some("") ==> Port(env) == Integer(3100)
    ensures Var(env, "IDLE_MS").None? || Var(env, "IDLE_MS") == Some("") ==> IdleMs(env) == Integer(3000)
  {
  }

  /** `Number` reads back every decimal numeral. */
  lemma NumberOfDecimal(n: nat)
    ensures ToNumber(Decimal(n)) == Integer(n)
  {
    DecimalRoundTrip(n);
    TrimUnchanged(Decimal(n));
  }

  /** A port or idle time written as a decimal numeral is read back. */
  lemma NumericOptionsReadBack(env: Env, n: nat)
    ensures Port(env["PORT" := Decimal(n)]) == Integer(n)
    ensures IdleMs(env["IDLE_MS" := Decimal(n)]) == Integer(n)
  {
    NumberOfDecimal(n);
  }
}

=== FILE: json.dfy ===
/** JavaScript values as they travel through the runner: parsed JSON bodies,
    workflow definitions, the extension's stored state. An object keeps its
    properties in insertion order, as JavaScript does for non-index keys. A
    property that is absent (`undefined`) is `None` where it is looked up. */
module JsValues {
  import opened Common

  datatype Json =
    | Null
    | Bool(b: bool)
    | Num(n: int)
    | Str(s: string)
    | Arr(items: seq<Json>)
    | Obj(fields: seq<(string, Json)>)

  /** JavaScript truthiness: `null`, `false`, `0` and `""` are falsy. */
  predicate Truthy(v: Json) {
    match v
    case Null => false
    case Bool(b) => b
    case Num(n) => n != 0
    case Str(s) => s != ""
    case Arr(_) => true
    case Obj(_) => true
  }

  /** Truthiness of a possibly absent value (`undefined` is falsy). */
  predicate Present(v: Option<Json>) {
    v.Some? && Truthy(v.value)
  }

  /** `o[k]` on a property list: the value of the first property named k. */
  function Lookup(fields: seq<(string, Json)>, k: string): (r: Option<Json>)
    ensures r.Some? <==> exists i :: 0 <= i < |fields| && fields[i].0 == k
    ensures r.Some? ==> exists i :: 0 <= i < |fields| && fields[i] == (k, r.value)
  {
    if fields == [] then None
    else if fields[0].0 == k then Some(fields[0].1)
    else
      var r := Lookup(fields[1..], k);
      assert forall i :: 1 <= i < |fields| ==> fields[i] == fields[1..][i - 1];
      r
  }

  /** `v[k]` on any value: only objects have named properties here. */
  function Get(v: Json, k: string): Option<Json> {
    if v.Obj? then Lookup(v.fields, k) else None
  }

  /** `o[k] = x`: an existing property keeps its position, a new one goes last. */
  function Assign(fields: seq<(string, Json)>, k: string, x: Json): (r: seq<(string, Json)>)
    ensures Lookup(r, k) == Some(x)
    ensures forall j :: j != k ==> Lookup(r, j) == Lookup(fields, j)
  {
    if fields == [] then [(k, x)]
    else if fields[0].0 == k then [(k, x)] + fields[1..]
    else
      var rest := Assign(fields[1..], k, x);
      assert forall j :: j != k && j != fields[0].0 ==> Lookup([fields[0]] + rest, j) == Lookup(rest, j);
      [fields[0]] + rest
  }

  /** `===` between two values: primitives by value; arrays and objects are
      compared by reference, and two separately parsed ones are never the same. */
  predicate StrictEquals(a: Json, b: Json) {
    !a.Arr? && !a.Obj? && a == b
  }
}

=== FILE: logger.dfy ===
/** Coloured console output (runner/src/core/logger.js): every line the
    runner prints is a text wrapped in one ANSI colour escape and the reset
    escape. The colour of a request line follows its status code (and a
    few URLs are always shown as links); the colour of a streamed run log
    line follows the entry's type. Writing to the console is left out: the
    functions below return the line that would be printed. */
module Logger {
  import opened Common
  import opened JsValues
  import Config

  const Reset: string := "\U{1B}[0m"

  datatype Color = Green | Yellow | Red | BlueBright | Dim

  /** The escape sequence of each colour. */
  function Escape(c: Color): (e: string)
    ensures |e| >= 4 && e[0] == '\U{1B}' && e[1] == '['
  {
    match c
    case Green => "\U{1B}[32m"
    case Yellow => "\U{1B}[33m"
    case Red => "\U{1B}[31m"
    case BlueBright => "\U{1B}[94m"
    case Dim => "\U{1B}[2m"
  }

  /** `wrap(color, text)` */
  function Wrap(c: Color, text: string): (line: string)
    ensures |line| == |Escape(c)| + |text| + |Reset|
    ensures StartsWith(line, Escape(c)) && EndsWith(line, Reset)
    ensures line[|Escape(c)|..|line| - |Reset|] == text
  {
    Escape(c) + text + Reset
  }

  /** No colour's escape is a prefix of another's, so a wrapped line tells
      which colour it was printed in, and which text. */
  lemma WrapInjective(a: Color, t: string, b: Color, u: string)
    requires Wrap(a, t) == Wrap(b, u)
    ensures a == b && t == u
  {
    var l := Wrap(a, t);
    assert l[..|Escape(a)|] == Escape(a);
    assert l[..|Escape(b)|] == Escape(b);
    assert l[2] == Escape(a)[2] == Escape(b)[2];
    assert l[3] == Escape(a)[3] == Escape(b)[3];
    assert a == b;
    assert t == l[|Escape(a)|..|l| - |Reset|] == u;
  }

  // ---------------------------------------------------------------------
  // requestLogger

  /** The URLs that are always printed as links. */
  predicate IsLink(url: string) {
    url == "/demo" || url == "/health" || url == "/api/health"
  }

  /** The colour of a finished request: red for 5xx and above, yellow for
      4xx, bright blue for 3xx, green below; bright blue for the link URLs
      whatever the code. */
  function RequestColor(code: int, url: string): (c: Color)
    ensures IsLink(url) ==> c == BlueBright
    ensures !IsLink(url) ==>
      (c == Red <==> code >= 500) && (c == Yellow <==> 400 <= code < 500)
      && (c == BlueBright <==> 300 <= code < 400) && (c == Green <==> code < 300)
  {
    var color :=
      if code >= 500 then Red
      else if code >= 400 then Yellow
      else if code >= 300 then BlueBright
      else Green;
    if IsLink(url) then BlueBright else color
  }

  /** How alarming a colour is, in the order the status classes rise. */
  function Severity(c: Color): nat {
    match c
    case Green => 0
    case BlueBright => 1
    case Yellow => 2
    case Red => 3
    case Dim => 0
  }

  /** Outside the link URLs, a higher status code never gets a less
      alarming colour. */
  lemma RequestColorMonotone(code1: int, code2: int, url: string)
    requires code1 <= code2 && !IsLink(url)
    ensures Severity(RequestColor(code1, url)) <= Severity(RequestColor(code2, url))
  {
  }

  /** A number as JavaScript prints it in a template literal (integers only). */
  function IntText(n: int): (s: string)
    ensures s != []
    ensures n >= 0 ==> s == Config.Decimal(n)
    ensures n < 0 ==> s[0] == '-' && s[1..] == Config.Decimal(-n)
  {
    if n < 0 then "-" + Config.Decimal(-n) else Config.Decimal(n)
  }

  /** `res.statusCode || 0` */
  function StatusCode(statusCode: Option<int>): (code: int)
    ensures statusCode.Some? && statusCode.value != 0 ==> code == statusCode.value
    ensures statusCode.None? ==> code == 0
  {
    if statusCode.Some? then statusCode.value else 0
  }

  /** `req.originalUrl || req.url || ''` */
  function RequestUrl(originalUrl: Option<string>, url: Option<string>): (u: string)
    ensures originalUrl.Some? && originalUrl.value != "" ==> u == originalUrl.value
    ensures (originalUrl.None? || originalUrl.value == "") ==>
              u == (if url.Some? then url.value else "")
  {
    if originalUrl.Some? && originalUrl.value != "" then originalUrl.value
    else if url.Some? && url.value != "" then url.value
    else ""
  }

  /** The line printed when a response finishes, `ms` being the time the
      request took. */
  function RequestLine(httpMethod: string, originalUrl: Option<string>, url: Option<string>,
                       statusCode: Option<int>, ms: int): string
  {
    var code := StatusCode(statusCode);
    var u := RequestUrl(originalUrl, url);
    Wrap(RequestColor(code, u), "[web] " + httpMethod + " " + u + " -> " + IntText(code) + " " + IntText(ms) + "ms")
  }

  /** A request line to a link URL is always bright blue, and any other
      request line is red exactly when its status code is 500 or more. */
  lemma RequestLineColor(httpMethod: string, originalUrl: Option<string>, url: Option<string>,
                         statusCode: Option<int>, ms: int)
    ensures var line := RequestLine(httpMethod, originalUrl, url, statusCode, ms);
      (IsLink(RequestUrl(originalUrl, url)) ==> StartsWith(line, Escape(BlueBright)))
      && (!IsLink(RequestUrl(originalUrl, url)) ==>
            (StartsWith(line, Escape(Red)) <==> StatusCode(statusCode) >= 500))
  {
    var line := RequestLine(httpMethod, originalUrl, url, statusCode, ms);
    var c := RequestColor(StatusCode(statusCode), RequestUrl(originalUrl, url));
    if StartsWith(line, Escape(Red)) {
      assert line[2] == Escape(Red)[2] && line[3] == Escape(Red)[3];
      assert line[..|Escape(c)|] == Escape(c);
      assert line[2] == Escape(c)[2] && line[3] == Escape(c)[3];
    }
  }

  // ---------------------------------------------------------------------
  // printSseEntry

  /** `String(v)` for a present value; an array prints as its elements
      joined by commas, null ones empty. */
  function ToStr(v: Json): string {
    match v
    case Null => "null"
    case Bool(b) => if b then "true" else "false"
    case Num(n) => IntText(n)
    case Str(s) => s
    case Obj(_) => "[object Object]"
    case Arr(items) =>
      JoinComma(seq(|items|, i requires 0 <= i < |items| => if items[i].Null? then "" else ToStr(items[i])))
  }

  /** `parts.join(',')` */
  function JoinComma(parts: seq<string>): string {
    if parts == [] then ""
    else if |parts| == 1 then parts[0]
    else parts[0] + "," + JoinComma(parts[1..])
  }

  /** `String(v)`, an absent value printing as `undefined`. */
  function JsString(v: Option<Json>): string {
    if v.None? then "undefined" else ToStr(v.value)
  }

  /** The colour of a log entry of the given type. */
  function EntryColor(kind: string): (c: Color)
    ensures c == Yellow <==> kind == "warn"
    ensures c == Red <==> kind == "error" || kind == "pageerror" || kind == "requestfailed"
    ensures c == Dim <==> kind == "trace" || kind == "console"
    ensures c == Green <==> kind !in {"warn", "error", "pageerror", "requestfailed", "trace", "console"}
  {
    var color := Green;
    var color := if kind == "warn" then Yellow else color;
    var color := if kind == "error" || kind == "pageerror" || kind == "requestfailed" then Red else color;
    if kind == "trace" || kind == "console" then Dim else color
  }

  /** `String(entry.type)` */
  function EntryType(entry: Json): string {
    JsString(Get(entry, "type"))
  }

  /** `entry.ts || now`, `now` being the current time in ISO form. */
  function EntryTime(entry: Json, now: string): string {
    if Present(Get(entry, "ts")) then JsString(Get(entry, "ts")) else now
  }

  /** `entry.text || ''` */
  function EntryText(entry: Json): string {
    if Present(Get(entry, "text")) then JsString(Get(entry, "text")) else ""
  }

  /** The line of an entry of type `kind` with time `ts` and text `text`
      of run runId: the dim run prefix, a space and `[ts] kind - text` in
      the type's colour. */
  function SseLine(runId: string, ts: string, kind: string, text: string): string {
    Wrap(Dim, "[run:" + runId + "]") + " " + Wrap(EntryColor(kind), "[" + ts + "] " + kind + " - " + text)
  }

  /** `printSseEntry(runId, entry)`: nothing for a falsy entry or a
      heartbeat; otherwise the entry's line, its type printed with
      `String`, its time defaulting to now and its text to empty. (`===`
      against a string literal is equality of the values.) */
  function PrintSseEntry(runId: string, entry: Json, now: string): (line: Option<string>)
    ensures line.None? <==> !Truthy(entry) || Get(entry, "type") == Some(Str("ping"))
  {
    if !Truthy(entry) || Get(entry, "type") == Some(Str("ping")) then None
    else Some(SseLine(runId, EntryTime(entry, now), EntryType(entry), EntryText(entry)))
  }

  /** The line of an entry without text ends in ` - ` and the reset. */
  lemma PrintSseEntryNoText(runId: string, entry: Json, now: string)
    requires PrintSseEntry(runId, entry, now).Some? && !Present(Get(entry, "text"))
    ensures EndsWith(PrintSseEntry(runId, entry, now).value, " - " + Reset)
  {
    var ts, kind := EntryTime(entry, now), EntryType(entry);
    assert EntryText(entry) == "";
    assert PrintSseEntry(runId, entry, now).value == SseLine(runId, ts, kind, "");
    SseLineReadBack(runId, ts, kind, "");
    assert " - " + "" == " - ";
  }

  /** A printed line can be read back: it starts with the run's prefix and
      the type's colour, and ends with ` - `, the text and the reset. */
  lemma SseLineReadBack(runId: string, ts: string, kind: string, text: string)
    ensures var line := SseLine(runId, ts, kind, text);
      StartsWith(line, Wrap(Dim, "[run:" + runId + "]") + " " + Escape(EntryColor(kind)))
      && EndsWith(line, " - " + text + Reset)
  {
    var body := "[" + ts + "] " + kind + " - " + text;
    assert body == ("[" + ts + "] " + kind) + (" - " + text);
    var c := EntryColor(kind);
    assert Wrap(c, body) == Escape(c) + (("[" + ts + "] " + kind) + (" - " + text)) + Reset;
    FramedEnds(Wrap(Dim, "[run:" + runId + "]") + " ", Escape(c), "[" + ts + "] " + kind, " - " + text, Reset);
  }

  /** The colour of a printed line is its type's colour, and the rest of
      the line is `[ts] kind - text`: no other colour or body prints the
      same line. */
  lemma SseLineColor(runId: string, ts: string, kind: string, text: string, c: Color, rest: string)
    requires SseLine(runId, ts, kind, text) == Wrap(Dim, "[run:" + runId + "]") + " " + Wrap(c, rest)
    ensures c == EntryColor(kind)
    ensures rest == "[" + ts + "] " + kind + " - " + text
  {
    var prefix := Wrap(Dim, "[run:" + runId + "]") + " ";
    var body := "[" + ts + "] " + kind + " - " + text;
    var l1 := prefix + Wrap(c, rest);
    var l2 := prefix + Wrap(EntryColor(kind), body);
    assert l1[|prefix|..] == Wrap(c, rest);
    assert l2[|prefix|..] == Wrap(EntryColor(kind), body);
    WrapInjective(c, rest, EntryColor(kind), body);
  }
}

=== FILE: messages.dfy ===
/** The text of a block's log message (src/utils/getBlockMessage.js): the
    message key is looked up in the English or the Chinese locale, chosen
    from the page's language, and the compiled locale message is applied to
    the block's other properties; a key neither locale knows is shown as it
    is. The page's document and navigator are inputs; the locales are maps
    from message key to compiled message. */
module BlockMessages {
  import opened Common

  datatype Lang = En | Zh

  /** The page's `document`: absent, or present with a root element whose
      `lang` is given (`None` when the root element is null, so that reading
      its language throws). */
  datatype Document = NoDocument | Document(rootLang: Option<string>)

  /** The page's `navigator`: absent, or present with its `language`,
      which may be undefined. */
  datatype Navigator = NoNavigator | Navigator(language: Option<string>)

  /** `(docLang || navLang || '').toLowerCase()`, or `None` when reading
      the document language throws. */
  function DetectedLanguage(doc: Document, nav: Navigator): (r: Option<string>)
    ensures r.None? <==> doc == Document(None)
    ensures doc.Document? && doc.rootLang.Some? && doc.rootLang.value != "" ==>
              r == Some(LowerAscii(doc.rootLang.value))
    ensures doc == NoDocument || doc == Document(Some("")) ==>
              r == Some(LowerAscii(if nav.Navigator? && nav.language.Some? then nav.language.value else ""))
  {
    if doc.Document? && doc.rootLang.None? then None
    else
      var docLang := if doc.Document? then doc.rootLang.value else "";
      var navLang := if nav.Navigator? && nav.language.Some? then nav.language.value else "";
      var lang := if docLang != "" then docLang else if navLang != "" then navLang else "";
      Some(LowerAscii(lang))
  }

  /** The locale used: English when the detected language starts with
      `en`; Chinese otherwise, and when detection throws. */
  function ChooseLang(doc: Document, nav: Navigator): (l: Lang)
    ensures l == En <==> DetectedLanguage(doc, nav).Some? && StartsWith(DetectedLanguage(doc, nav).value, "en")
  {
    var detected := DetectedLanguage(doc, nav);
    var current := Zh;
    if detected.None? then Zh
    else if StartsWith(detected.value, "en") then En
    else if StartsWith(detected.value, "zh") then Zh
    else current
  }

  /** A language tag selects English exactly when its first two letters
      are `e` and `n` in either case. */
  predicate EnglishTag(s: string) {
    |s| >= 2 && (s[0] == 'e' || s[0] == 'E') && (s[1] == 'n' || s[1] == 'N')
  }

  /** A non-empty document language decides alone, in any letter case; an
      empty or absent one leaves the decision to the navigator. */
  lemma {:induction false} ChooseLangByTag(doc: Document, nav: Navigator)
    ensures doc.Document? && doc.rootLang.Some? && doc.rootLang.value != "" ==>
              (ChooseLang(doc, nav) == En <==> EnglishTag(doc.rootLang.value))
    ensures doc == NoDocument || doc == Document(Some("")) ==>
              (ChooseLang(doc, nav) == En <==> nav.Navigator? && nav.language.Some? && EnglishTag(nav.language.value))
    ensures doc == Document(None) ==> ChooseLang(doc, nav) == Zh
  {
    if doc.Document? && doc.rootLang.Some? && doc.rootLang.value != "" {
      LowerTag(doc.rootLang.value);
    }
    if doc == NoDocument || doc == Document(Some("")) {
      if nav.Navigator? && nav.language.Some? {
        LowerTag(nav.language.value);
      } else {
        LowerTag("");
      }
    }
  }

  lemma LowerTag(s: string)
    ensures StartsWith(LowerAscii(s), "en") <==> EnglishTag(s)
  {
    var l := LowerAscii(s);
    if |s| >= 2 {
      assert l[..2] == [LowerChar(s[0]), LowerChar(s[1])];
    }
  }

  // ---------------------------------------------------------------------
  // Compiled locale messages

  /** A piece of a compiled message: literal text, or a named slot filled
      from the block's data. */
  datatype Part = Text(s: string) | Slot(key: string)

  type Message = seq<Part>

  /** The `log.messages` table of the English and the Chinese locale. */
  datatype Locales = Locales(en: map<string, Message>, zh: map<string, Message>)

  /** `normalize(values)`: `values.join('')`, an undefined value joining
      as the empty string. */
  function Normalize(values: seq<Option<string>>): (r: string)
    ensures values == [] ==> r == ""
  {
    if values == [] then ""
    else (if values[0].Some? then values[0].value else "") + Normalize(values[1..])
  }

  /** `interpolate(key)`: the block's property `key`, undefined when absent. */
  function Interpolate(data: map<string, string>, key: string): (v: Option<string>)
    ensures v.Some? <==> key in data
    ensures v.Some? ==> v.value == data[key]
  {
    if key in data then Some(data[key]) else None
  }

  /** `named(key)`: the key itself. */
  function Named(key: string): (k: string)
    ensures k == key
  {
    key
  }

  /** The value a part contributes, through the helpers. */
  function PartValue(p: Part, data: map<string, string>): Option<string> {
    match p
    case Text(s) => Some(s)
    case Slot(key) => Interpolate(data, Named(key))
  }

  /** A compiled message applied to `{ normalize, interpolate, named }`. */
  function Render(m: Message, data: map<string, string>): string {
    Normalize(seq(|m|, i requires 0 <= i < |m| => PartValue(m[i], data)))
  }

  lemma {:induction false} NormalizeAppend(a: seq<Option<string>>, b: seq<Option<string>>)
    ensures Normalize(a + b) == Normalize(a) + Normalize(b)
  {
    if a == [] {
      assert a + b == b;
    } else {
      assert (a + b)[1..] == a[1..] + b;
      NormalizeAppend(a[1..], b);
    }
  }

  /** Rendering goes piece by piece: the text of two messages one after
      the other is the two texts one after the other. */
  lemma RenderAppend(m1: Message, m2: Message, data: map<string, string>)
    ensures Render(m1 + m2, data) == Render(m1, data) + Render(m2, data)
  {
    var v1 := seq(|m1|, i requires 0 <= i < |m1| => PartValue(m1[i], data));
    var v2 := seq(|m2|, i requires 0 <= i < |m2| => PartValue(m2[i], data));
    var m := m1 + m2;
    assert seq(|m|, i requires 0 <= i < |m| => PartValue(m[i], data)) == v1 + v2;
    NormalizeAppend(v1, v2);
  }

  /** A slot of a key the block lacks renders as nothing; one of a key it
      has renders as that property. */
  lemma RenderSlot(key: string, data: map<string, string>)
    ensures Render([Slot(key)], data) == (if key in data then data[key] else "")
  {
    var v := seq(1, i requires 0 <= i < 1 => PartValue([Slot(key)][i], data));
    assert v == [Interpolate(data, key)];
    assert Normalize(v) == (if key in data then data[key] else "") + Normalize([]);
  }

  /** Only the keys a message names matter: two blocks that agree on them
      give the same text. */
  lemma {:induction false} RenderNamedOnly(m: Message, d1: map<string, string>, d2: map<string, string>)
    requires forall i :: 0 <= i < |m| && m[i].Slot? ==> Interpolate(d1, m[i].key) == Interpolate(d2, m[i].key)
    ensures Render(m, d1) == Render(m, d2)
  {
    if m != [] {
      RenderNamedOnly(m[1..], d1, d2);
      assert m == [m[0]] + m[1..];
      RenderAppend([m[0]], m[1..], d1);
      RenderAppend([m[0]], m[1..], d2);
      assert Render([m[0]], d1) == Render([m[0]], d2) by {
        var v1 := seq(1, i requires 0 <= i < 1 => PartValue([m[0]][i], d1));
        var v2 := seq(1, i requires 0 <= i < 1 => PartValue([m[0]][i], d2));
        assert v1 == v2;
      }
    }
  }

  /** The block's message text: the chosen locale's message for the key
      applied to the block's other properties, or the key itself when that
      locale has none. */
  function BlockMessage(message: string, data: map<string, string>, doc: Document, nav: Navigator,
                        locales: Locales): (r: string)
    ensures var locale := if ChooseLang(doc, nav) == En then locales.en else locales.zh;
      (message in locale ==> r == Render(locale[message], data))
      && (message !in locale ==> r == message)
  {
    var locale := if ChooseLang(doc, nav) == En then locales.en else locales.zh;
    if message in locale then Render(locale[message], data) else message
  }

  /** A key neither locale knows is shown unchanged, whatever the page's
      language and the block's data. */
  lemma UnknownKeyShown(message: string, data: map<string, string>, doc: Document, nav: Navigator,
                        locales: Locales)
    requires message !in locales.en && message !in locales.zh
    ensures BlockMessage(message, data, doc, nav, locales) == message
  {
  }

  /** When reading the document's language throws, the Chinese locale is
      used whatever the navigator says. */
  lemma DetectionFailureIsChinese(message: string, data: map<string, string>, nav: Navigator, locales: Locales)
    requires message in locales.zh
    ensures BlockMessage(message, data, Document(None), nav, locales) == Render(locales.zh[message], data)
  {
  }
}

=== FILE: progress.dfy ===
/** The run page's client state (runner/views/src/composables/useRunner.js):
    starting a run, and the progress machine that the messages of the run's
    event stream drive. A workflow's nodes each have a state
    (`pending`, `active`, `done`, `error`) and a detail record
    (status, start and end time, a per-node log); the run has an overall
    status and a current node index.

    Clock readings (`new Date().toISOString()`) are the parameter `now`,
    one reading per message. */
module Progress {
  import opened Common

  datatype NodeState = Pending | Active | Done | Error

  datatype Overall = Idle | Running | Succeeded | Failed | Stopped

  /** A node of the workflow's metadata (`caption` is its `label`). A missing id or label is `None`. */
  datatype Node = Node(id: Option<string>, caption: Option<string>, rawLabel: Option<string>)

  /** `${node.label}` in a template literal: a missing label prints as
      `undefined`. */
  function LabelText(caption: Option<string>): (t: string)
    ensures caption.Some? ==> t == caption.value
    ensures caption.None? ==> t == "undefined"
  {
    if caption.Some? then caption.value else "undefined"
  }

  /** `(node && node.label) || ''`: a missing label prints as nothing. */
  function EndLabelText(caption: Option<string>): (t: string)
    ensures caption.Some? ==> t == caption.value
    ensures caption.None? ==> t == ""
  {
    if caption.Some? then caption.value else ""
  }

  /** The `meta` of a `wfmeta` message; `nodes` is `None` when it is
      absent or not an array. */
  datatype Meta = Meta(nodes: Option<seq<Node>>)

  /** The block the extension reports as current. A missing start time is "". */
  datatype Current = Current(id: Option<string>, name: Option<string>, startedAt: string)

  /** The `data` of a `wfstate` message. */
  datatype WfState = WfState(current: Option<Current>, status: Option<string>)

  /** A message of the event stream, or a client-side log line. */
  datatype Message = Message(kind: Option<string>, text: string, ts: string, data: Option<WfState>, meta: Option<Meta>)

  datatype Entry = Entry(ts: string, kind: string, text: string)

  /** A node's detail record; an unset time is "". */
  datatype Detail = Detail(status: NodeState, startedAt: string, endedAt: string, logs: seq<Entry>)

  /** The body `start` posts to /api/runs. */
  datatype Request = Request(workflowFile: string, finishPolicy: string, idleMs: int, timeoutMs: int)

  /** The value the HTTP helper resolves with; a missing `msg` or `runId` is "". */
  datatype Reply = Reply(code: int, msg: string, runId: string)

  /** How the request of `start` ends: with a value (possibly none), or by
      throwing an error whose message is given. */
  datatype StartOutcome = Answered(reply: Option<Reply>) | Threw(message: string)

  const DefaultWorkflow: string := "baidu-search.json"
  const StartedPrefix: string := "开始执行: "
  const FinishedPrefix: string := "执行完成: "
  const FailedPrefix: string := "执行失败: "
  /** What marks a node log entry as a completion record. */
  const FinishMark: string := "执行完成"

  const PendingDetail: Detail := Detail(Pending, "", "", [])

  /** How far a node state has come: pending, active, done, and error last. */
  function Rank(s: NodeState): nat {
    match s
    case Pending => 0
    case Active => 1
    case Done => 2
    case Error => 3
  }

  /** Every node state is where it was or further on. In particular an
      error stays an error, and nothing returns to pending. */
  predicate Advanced(before: seq<NodeState>, after: seq<NodeState>) {
    |after| == |before| && forall k :: 0 <= k < |before| ==> Rank(before[k]) <= Rank(after[k])
  }

  /** What `finishNodeAt` makes of a node state. */
  function Finished(s: NodeState): NodeState {
    if s == Error then Error else Done
  }

  /** What `startNodeAt` makes of a node state. */
  function Started(s: NodeState): NodeState {
    if s == Pending then Active else s
  }

  function NodesOf(meta: Meta): seq<Node> {
    if meta.nodes.Some? then meta.nodes.value else []
  }

  /** The property name a node's id becomes as a key of the detail map. */
  function KeyOf(id: Option<string>): string {
    if id.None? then "undefined" else id.value
  }

  /** The key the `end` handling looks a node's detail up under
      (`(node && node.id) || ''`). */
  function EndKey(id: Option<string>): string {
    if id.None? then "" else id.value
  }

  /** The detail keys of a list of nodes. */
  function NodeKeys(nodes: seq<Node>): set<string> {
    set i | 0 <= i < |nodes| :: KeyOf(nodes[i].id)
  }

  /** `x.id === cur.id || x.rawLabel === cur.name`; an absent property is
      `undefined`, which equals another `undefined`. */
  predicate Matches(n: Node, cur: Current) {
    n.id == cur.id || n.rawLabel == cur.name
  }

  /** `findIndex` of the current block among the nodes, or -1. */
  function FindNode(nodes: seq<Node>, cur: Current): (r: int)
    ensures -1 <= r < |nodes|
    ensures r >= 0 ==> Matches(nodes[r], cur)
    ensures forall k :: 0 <= k < |nodes| && (r == -1 || k < r) ==> !Matches(nodes[k], cur)
  {
    if nodes == [] then -1
    else if Matches(nodes[0], cur) then 0
    else
      var r := FindNode(nodes[1..], cur);
      assert forall k :: 1 <= k < |nodes| ==> nodes[k] == nodes[1..][k - 1];
      if r == -1 then -1 else r + 1
  }

  /** The node a `wfstate` message makes current, or -1. */
  function Located(nodes: seq<Node>, current: Option<Current>): (r: int)
    ensures -1 <= r < |nodes|
  {
    if current.None? then -1 else FindNode(nodes, current.value)
  }

  /** The stop hint: a warning whose text matches
      /(Run stopped by user|Stopping by user request)/i. */
  predicate StopHint(m: Message) {
    m.kind == Some("warn")
    && (Contains(LowerAscii(m.text), "run stopped by user") || Contains(LowerAscii(m.text), "stopping by user request"))
  }

  /** A message that ends the stream: `end`, `error` or a stop hint. */
  predicate Terminal(m: Message) {
    m.kind == Some("end") || m.kind == Some("error") || StopHint(m)
  }

  predicate Succeeds(status: Option<string>) {
    status == Some("success") || status == Some("succeeded")
  }

  predicate Fails(status: Option<string>) {
    status == Some("error") || status == Some("failed")
  }

  // ---------------------------------------------------------------------
  // Node states after a `wfstate` message

  /** The states after the current block moves to node idx (from node
      prev): the node left and every node before idx are finished, and idx
      is started. */
  function AfterCurrent(st: seq<NodeState>, prev: int, idx: int): (r: seq<NodeState>)
    ensures |r| == |st|
  {
    seq(|st|, k requires 0 <= k < |st| =>
      if k < idx || (k == prev && k != idx) then Finished(st[k])
      else if k == idx then Started(st[k])
      else st[k])
  }

  /** The states after the reported status: success finishes every node;
      failure marks node min(index, last) as the error; anything else
      changes nothing. */
  function AfterStatus(st: seq<NodeState>, index: int, status: Option<string>): (r: seq<NodeState>)
    ensures |r| == |st|
  {
    if Succeeds(status) then seq(|st|, k requires 0 <= k < |st| => Finished(st[k]))
    else if Fails(status) then
      var i := if index < |st| - 1 then index else |st| - 1;
      if i >= 0 then st[i := Error] else st
    else st
  }

  /** The overall status after a `wfstate` message. */
  function StatusAfter(status: Option<string>): Overall {
    if Succeeds(status) then Succeeded else if Fails(status) then Failed else Running
  }

  /** Moving to a node keeps every node where it was or further on; the
      nodes before the new one end up done (or error), and the new one is
      no longer pending. */
  lemma AfterCurrentAdvances(st: seq<NodeState>, prev: int, idx: int)
    requires 0 <= idx < |st|
    ensures Advanced(st, AfterCurrent(st, prev, idx))
    ensures forall k :: 0 <= k < idx ==> AfterCurrent(st, prev, idx)[k] in {Done, Error}
    ensures AfterCurrent(st, prev, idx)[idx] != Pending
    ensures AfterCurrent(st, prev, idx)[idx] == Active <==> st[idx] in {Pending, Active}
  {
    var r := AfterCurrent(st, prev, idx);
    forall k | 0 <= k < |st| ensures Rank(st[k]) <= Rank(r[k]) {
      assert r[k] in {st[k], Finished(st[k]), Started(st[k])};
    }
  }

  /** The reported status keeps every node where it was or further on;
      success leaves every node done or error, and failure leaves an error
      at the current node (the last one when the index is past the end). */
  lemma AfterStatusAdvances(st: seq<NodeState>, index: int, status: Option<string>)
    requires 0 <= index
    ensures Advanced(st, AfterStatus(st, index, status))
    ensures Succeeds(status) ==> forall k :: 0 <= k < |st| ==> AfterStatus(st, index, status)[k] in {Done, Error}
    ensures Succeeds(status) ==> forall k :: 0 <= k < |st| ==> (AfterStatus(st, index, status)[k] == Error <==> st[k] == Error)
    ensures !Succeeds(status) && Fails(status) && st != [] ==>
      AfterStatus(st, index, status)[if index < |st| then index else |st| - 1] == Error
    ensures !Succeeds(status) && !Fails(status) ==> AfterStatus(st, index, status) == st
  {
  }

  // ---------------------------------------------------------------------
  // Node details

  /** `startNodeAt` on a detail record: the start time is set if unset,
      the status becomes active and a start entry is logged. */
  function StartDetail(d: Detail, caption: string, startedAt: string, now: string): Detail {
    d.(startedAt := if d.startedAt != "" then d.startedAt else if startedAt != "" then startedAt else now,
       status := Active,
       logs := d.logs + [Entry(now, "info", StartedPrefix + caption)])
  }

  /** `finishNodeAt` on a detail record. */
  function FinishDetail(d: Detail, caption: string, now: string): Detail {
    d.(endedAt := if d.endedAt != "" then d.endedAt else now,
       status := Finished(d.status),
       logs := d.logs + [Entry(now, "info", FinishedPrefix + caption)])
  }

  /** The failure of a node: the end time is overwritten. */
  function FailDetail(d: Detail, caption: string, now: string): Detail {
    d.(status := Error, endedAt := now, logs := d.logs + [Entry(now, "error", FailedPrefix + caption)])
  }

  predicate HasFinish(logs: seq<Entry>) {
    exists i :: 0 <= i < |logs| && Contains(logs[i].text, FinishMark)
  }

  /** The `end` handling of a detail record: a completion entry is added
      only when none is there yet. */
  function EndDetail(d: Detail, caption: string, now: string): Detail {
    d.(endedAt := if d.endedAt != "" then d.endedAt else now,
       status := Finished(d.status),
       logs := if HasFinish(d.logs) then d.logs else d.logs + [Entry(now, "info", FinishedPrefix + caption)])
  }

  /** The detail record of node i, if the node exists and has one, updated by f. */
  function StartDetails(ds: map<string, Detail>, nodes: seq<Node>, i: int, startedAt: string, now: string): map<string, Detail> {
    if 0 <= i < |nodes| && KeyOf(nodes[i].id) in ds then
      ds[KeyOf(nodes[i].id) := StartDetail(ds[KeyOf(nodes[i].id)], LabelText(nodes[i].caption), startedAt, now)]
    else ds
  }

  function FinishDetails(ds: map<string, Detail>, nodes: seq<Node>, i: int, now: string): map<string, Detail> {
    if 0 <= i < |nodes| && KeyOf(nodes[i].id) in ds then
      ds[KeyOf(nodes[i].id) := FinishDetail(ds[KeyOf(nodes[i].id)], LabelText(nodes[i].caption), now)]
    else ds
  }

  function FailDetails(ds: map<string, Detail>, nodes: seq<Node>, i: int, now: string): map<string, Detail> {
    if 0 <= i < |nodes| && KeyOf(nodes[i].id) in ds then
      ds[KeyOf(nodes[i].id) := FailDetail(ds[KeyOf(nodes[i].id)], LabelText(nodes[i].caption), now)]
    else ds
  }

  function EndDetails(ds: map<string, Detail>, nodes: seq<Node>, i: int, now: string): map<string, Detail> {
    if 0 <= i < |nodes| && EndKey(nodes[i].id) in ds then
      ds[EndKey(nodes[i].id) := EndDetail(ds[EndKey(nodes[i].id)], EndLabelText(nodes[i].caption), now)]
    else ds
  }

  /** `finishNodeAt(k)` for k = 0, 1, ..., n - 1, in that order. */
  function FinishDetailsUpTo(ds: map<string, Detail>, nodes: seq<Node>, n: int, now: string): map<string, Detail>
    decreases n
  {
    if n <= 0 then ds else FinishDetails(FinishDetailsUpTo(ds, nodes, n - 1, now), nodes, n - 1, now)
  }

  /** The `end` handling of nodes 0, 1, ..., n - 1, in that order. */
  function EndDetailsUpTo(ds: map<string, Detail>, nodes: seq<Node>, n: int, now: string): map<string, Detail>
    decreases n
  {
    if n <= 0 then ds else EndDetails(EndDetailsUpTo(ds, nodes, n - 1, now), nodes, n - 1, now)
  }

  /** The detail records after the current block moves to node idx (from
      node prev), in the order the handler updates them. */
  function MoveDetails(ds: map<string, Detail>, nodes: seq<Node>, prev: int, idx: int, startedAt: string, now: string)
    : map<string, Detail>
  {
    var f := if prev != idx && prev >= 0 then FinishDetails(ds, nodes, prev, now) else ds;
    StartDetails(FinishDetailsUpTo(f, nodes, idx, now), nodes, idx, startedAt, now)
  }

  /** The detail records after the reported status, index being the
      current node. */
  function StatusDetails(ds: map<string, Detail>, nodes: seq<Node>, index: int, status: Option<string>, now: string)
    : map<string, Detail>
  {
    var i := if index < |nodes| - 1 then index else |nodes| - 1;
    if Succeeds(status) then FinishDetailsUpTo(ds, nodes, |nodes|, now)
    else if Fails(status) && i >= 0 then FailDetails(ds, nodes, i, now)
    else ds
  }

  /** How a detail record may change while a run's messages arrive: a set
      start time is kept, and the log only grows. */
  predicate Grown(d: Detail, d': Detail) {
    (d.startedAt != "" ==> d'.startedAt == d.startedAt) && |d.logs| <= |d'.logs| && d'.logs[..|d.logs|] == d.logs
  }

  /** Finishing also keeps a set end time and an error status. */
  predicate Settled(d: Detail, d': Detail) {
    Grown(d, d') && (d.endedAt != "" ==> d'.endedAt == d.endedAt) && (d.status == Error ==> d'.status == Error)
  }

  predicate AllGrown(ds: map<string, Detail>, ds': map<string, Detail>) {
    ds'.Keys == ds.Keys && forall k :: k in ds ==> Grown(ds[k], ds'[k])
  }

  predicate AllSettled(ds: map<string, Detail>, ds': map<string, Detail>) {
    ds'.Keys == ds.Keys && forall k :: k in ds ==> Settled(ds[k], ds'[k])
  }

  lemma GrownTransitive(a: Detail, b: Detail, c: Detail)
    requires Grown(a, b) && Grown(b, c)
    ensures Grown(a, c)
  {
    assert c.logs[..|a.logs|] == c.logs[..|b.logs|][..|a.logs|];
  }

  lemma SettledTransitive(a: Detail, b: Detail, c: Detail)
    requires Settled(a, b) && Settled(b, c)
    ensures Settled(a, c)
  {
    GrownTransitive(a, b, c);
  }

  /** Finishing nodes 0 .. n - 1 never clears a start or end time, never
      overwrites an error, and only appends to the logs. */
  lemma {:induction false} FinishDetailsUpToSettles(ds: map<string, Detail>, nodes: seq<Node>, n: int, now: string)
    ensures AllSettled(ds, FinishDetailsUpTo(ds, nodes, n, now))
    decreases n
  {
    if n > 0 {
      var mid := FinishDetailsUpTo(ds, nodes, n - 1, now);
      FinishDetailsUpToSettles(ds, nodes, n - 1, now);
      var r := FinishDetails(mid, nodes, n - 1, now);
      forall k | k in ds ensures Settled(ds[k], r[k]) {
        assert Settled(mid[k], r[k]);
        SettledTransitive(ds[k], mid[k], r[k]);
      }
    }
  }

  /** Likewise for the `end` handling. */
  lemma {:induction false} EndDetailsUpToSettles(ds: map<string, Detail>, nodes: seq<Node>, n: int, now: string)
    ensures AllSettled(ds, EndDetailsUpTo(ds, nodes, n, now))
    decreases n
  {
    if n > 0 {
      var mid := EndDetailsUpTo(ds, nodes, n - 1, now);
      EndDetailsUpToSettles(ds, nodes, n - 1, now);
      var r := EndDetails(mid, nodes, n - 1, now);
      forall k | k in ds ensures Settled(ds[k], r[k]) {
        assert Settled(mid[k], r[k]);
        SettledTransitive(ds[k], mid[k], r[k]);
      }
    }
  }

  /** The `end` handling leaves every record it reaches with a completion
      entry. */
  lemma {:induction false} EndDetailsUpToFinish(ds: map<string, Detail>, nodes: seq<Node>, n: int, now: string)
    ensures EndDetailsUpTo(ds, nodes, n, now).Keys == ds.Keys
    ensures forall k :: 0 <= k < n && k < |nodes| && EndKey(nodes[k].id) in ds ==>
      HasFinish(EndDetailsUpTo(ds, nodes, n, now)[EndKey(nodes[k].id)].logs)
    decreases n
  {
    EndDetailsUpToSettles(ds, nodes, n, now);
    if n > 0 {
      var mid := EndDetailsUpTo(ds, nodes, n - 1, now);
      EndDetailsUpToFinish(ds, nodes, n - 1, now);
      var r := EndDetails(mid, nodes, n - 1, now);
      forall k | 0 <= k < n && k < |nodes| && EndKey(nodes[k].id) in ds
        ensures HasFinish(r[EndKey(nodes[k].id)].logs)
      {
        EndDetailsFinish(mid, nodes, n - 1, now, EndKey(nodes[k].id));
      }
    }
  }

  /** One step of the `end` pass keeps a completion entry, and gives one
      to the record it reaches. */
  lemma EndDetailsFinish(ds: map<string, Detail>, nodes: seq<Node>, i: int, now: string, key: string)
    requires key in ds
    requires HasFinish(ds[key].logs) || (0 <= i < |nodes| && key == EndKey(nodes[i].id))
    ensures key in EndDetails(ds, nodes, i, now) && HasFinish(EndDetails(ds, nodes, i, now)[key].logs)
  {
    if 0 <= i < |nodes| && key == EndKey(nodes[i].id) {
      EndDetailFinishes(ds[key], EndLabelText(nodes[i].caption), now);
    }
  }

  /** After the `end` handling a record has a completion entry. */
  lemma EndDetailFinishes(d: Detail, caption: string, now: string)
    ensures HasFinish(EndDetail(d, caption, now).logs)
  {
    if !HasFinish(d.logs) {
      var logs := EndDetail(d, caption, now).logs;
      assert logs[|d.logs|].text == FinishedPrefix + caption;
      assert OccursAt(logs[|d.logs|].text, FinishMark, 0);
    }
  }

  lemma HasFinishKept(logs: seq<Entry>, logs': seq<Entry>)
    requires HasFinish(logs) && |logs| <= |logs'| && logs'[..|logs|] == logs
    ensures HasFinish(logs')
  {
    var i :| 0 <= i < |logs| && Contains(logs[i].text, FinishMark);
    assert logs'[i] == logs[i];
  }

  /** The `end` handling of a record is idempotent: a second `end` for the
      same node adds no second completion entry and changes nothing. */
  lemma EndDetailIdempotent(d: Detail, caption: string, now: string)
    ensures EndDetail(EndDetail(d, caption, now), caption, now) == EndDetail(d, caption, now)
  {
    EndDetailFinishes(d, caption, now);
  }

  /** Moving to a node keeps every set start time and end time and every
      error, and only appends to the node logs. */
  lemma MoveDetailsGrow(ds: map<string, Detail>, nodes: seq<Node>, prev: int, idx: int, startedAt: string, now: string)
    ensures AllGrown(ds, MoveDetails(ds, nodes, prev, idx, startedAt, now))
  {
    var f := if prev != idx && prev >= 0 then FinishDetails(ds, nodes, prev, now) else ds;
    assert AllSettled(ds, f);
    FinishDetailsUpToSettles(f, nodes, idx, now);
    var g := FinishDetailsUpTo(f, nodes, idx, now);
    var r := StartDetails(g, nodes, idx, startedAt, now);
    forall k | k in ds ensures Grown(ds[k], r[k]) {
      assert Grown(ds[k], f[k]) && Grown(f[k], g[k]) && Grown(g[k], r[k]);
      GrownTransitive(ds[k], f[k], g[k]);
      GrownTransitive(ds[k], g[k], r[k]);
    }
  }

  /** The reported status keeps every set start time and only appends to
      the node logs; success moreover keeps end times and errors (a failure
      overwrites the failed node's end time). */
  lemma StatusDetailsGrow(ds: map<string, Detail>, nodes: seq<Node>, index: int, status: Option<string>, now: string)
    ensures AllGrown(ds, StatusDetails(ds, nodes, index, status, now))
    ensures Succeeds(status) ==> AllSettled(ds, StatusDetails(ds, nodes, index, status, now))
  {
    if Succeeds(status) {
      FinishDetailsUpToSettles(ds, nodes, |nodes|, now);
    }
  }

  lemma AllGrownTransitive(a: map<string, Detail>, b: map<string, Detail>, c: map<string, Detail>)
    requires AllGrown(a, b) && AllGrown(b, c)
    ensures AllGrown(a, c)
  {
    forall k | k in a ensures Grown(a[k], c[k]) {
      GrownTransitive(a[k], b[k], c[k]);
    }
  }

  // ---------------------------------------------------------------------
  // The client state

  /** `nodeDetails`: a reactive reference whose value is replaced on reset
      and whose records are updated in place. */
  class NodeDetails {
    var byId: map<string, Detail>

    constructor()
      ensures byId == map[]
    {
      byId := map[];
    }
  }

  /** The refs of `useRunner`. */
  class Runner {
    var logs: seq<Message>
    var runId: string
    var busy: bool
    /** Whether an event stream is open (`es.value` is set). */
    var streamOpen: bool
    var selectedWf: string
    var meta: Meta
    var index: int
    var states: seq<NodeState>
    var status: Overall
    const nodeDetails: NodeDetails

    /** One state per node of the current metadata. */
    ghost predicate Valid()
      reads this
    {
      |states| == |NodesOf(meta)| && 0 <= index
    }

    constructor()
      ensures Valid() && fresh(nodeDetails)
      ensures logs == [] && runId == "" && !busy && !streamOpen && selectedWf == ""
      ensures meta == Meta(Some([])) && index == 0 && states == [] && status == Idle && nodeDetails.byId == map[]
    {
      logs := [];
      runId := "";
      busy := false;
      streamOpen := false;
      selectedWf := "";
      meta := Meta(Some([]));
      index := 0;
      states := [];
      status := Idle;
      nodeDetails := new NodeDetails();
    }

    /** `resetProgress`: every node pending, the index at 0, the status
        idle, and a fresh pending detail record per node id. */
    method ResetProgress()
      modifies this, nodeDetails
      ensures Valid()
      ensures states == seq(|NodesOf(meta)|, _ => Pending) && index == 0 && status == Idle
      ensures nodeDetails.byId.Keys == NodeKeys(NodesOf(meta))
      ensures forall k :: k in nodeDetails.byId ==> nodeDetails.byId[k] == PendingDetail
      ensures logs == old(logs) && runId == old(runId) && busy == old(busy) && streamOpen == old(streamOpen)
      ensures selectedWf == old(selectedWf) && meta == old(meta)
    {
      var nodes := NodesOf(meta);
      states := seq(|nodes|, _ => Pending);
      index := 0;
      status := Idle;
      var m: map<string, Detail> := map[];
      for i := 0 to |nodes|
        invariant m.Keys == NodeKeys(nodes[..i])
        invariant forall k :: k in m ==> m[k] == PendingDetail
      {
        assert NodeKeys(nodes[..i + 1]) == NodeKeys(nodes[..i]) + {KeyOf(nodes[i].id)} by {
          assert forall j :: 0 <= j < i ==> nodes[..i + 1][j] == nodes[..i][j];
        }
        m := m[KeyOf(nodes[i].id) := PendingDetail];
      }
      assert nodes[..|nodes|] == nodes;
      nodeDetails.byId := m;
    }

    /** `clientLog`: a line of the client's own, stamped now. */
    method ClientLog(text: string, level: string, now: string)
      modifies this
      ensures logs == old(logs) + [Message(Some(level), text, now, None, None)]
      ensures runId == old(runId) && busy == old(busy) && streamOpen == old(streamOpen) && selectedWf == old(selectedWf)
      ensures meta == old(meta) && index == old(index) && states == old(states) && status == old(status)
    {
      logs := logs + [Message(Some(level), text, now, None, None)];
    }

    /** `start`. While busy it does nothing and posts nothing. Otherwise it
        posts the selected workflow file (the sample when none is selected)
        with the idle finish policy, after clearing the log and the run id.
        An answer with code 200 and a run id opens the run's stream, which
        keeps the runner busy, and resets the progress; any other answer, or
        an error, is logged and clears busy. */
    method Start(outcome: StartOutcome, now: string) returns (sent: Option<Request>)
      requires Valid()
      modifies this, nodeDetails
      ensures Valid()
      ensures old(busy) ==>
        (sent.None? && logs == old(logs) && busy && runId == old(runId)
         && streamOpen == old(streamOpen) && states == old(states) && status == old(status)
         && index == old(index) && nodeDetails.byId == old(nodeDetails.byId))
      ensures !old(busy) ==>
        sent == Some(Request(if old(selectedWf) == "" then DefaultWorkflow else old(selectedWf), "idle", 3000, 60000))
      ensures !old(busy) && Accepts(outcome) ==>
        runId == outcome.reply.value.runId && busy && streamOpen && logs == []
        && states == seq(|NodesOf(meta)|, _ => Pending) && index == 0 && status == Idle
        && nodeDetails.byId.Keys == NodeKeys(NodesOf(meta))
        && (forall k :: k in nodeDetails.byId ==> nodeDetails.byId[k] == PendingDetail)
      ensures !old(busy) && !Accepts(outcome) ==>
        runId == "" && !busy && !streamOpen && logs == [Message(Some(FailureLevel(outcome)), FailureText(outcome), now, None, None)]
        && states == old(states) && status == old(status) && index == old(index) && nodeDetails.byId == old(nodeDetails.byId)
      ensures meta == old(meta) && selectedWf == old(selectedWf)
    {
      if busy {
        return None;
      }
      busy := true;
      streamOpen := false;
      logs := [];
      runId := "";
      sent := Some(Request(if selectedWf == "" then DefaultWorkflow else selectedWf, "idle", 3000, 60000));
      if Accepts(outcome) {
        runId := outcome.reply.value.runId;
        ResetProgress();
        streamOpen := true;
      } else {
        ClientLog(FailureText(outcome), FailureLevel(outcome), now);
      }
      // finally: busy stays only while a stream is open
      if !streamOpen {
        busy := false;
      }
    }

    /** `onError`: the connection broke; it is logged, the stream closed
        and busy cleared. */
    method OnError(now: string)
      requires Valid()
      modifies this
      ensures Valid()
      ensures logs == old(logs) + [Message(Some("warn"), "[client] 日志流连接中断", now, None, None)]
      ensures !busy && !streamOpen
      ensures runId == old(runId) && meta == old(meta) && index == old(index) && states == old(states) && status == old(status)
      ensures selectedWf == old(selectedWf)
    {
      ClientLog("[client] 日志流连接中断", "warn", now);
      streamOpen := false;
      busy := false;
    }

    /** `startNodeAt(i, startedAt)` on the working copy st of the states:
        an index out of range changes nothing; otherwise a pending node
        becomes active and its detail record is started. */
    method StartNodeAt(st: seq<NodeState>, nodes: seq<Node>, i: int, startedAt: string, now: string)
      returns (st': seq<NodeState>)
      requires |st| == |nodes|
      modifies nodeDetails
      ensures |st'| == |st|
      ensures forall k :: 0 <= k < |st| ==> st'[k] == if k == i then Started(st[k]) else st[k]
      ensures nodeDetails.byId == StartDetails(old(nodeDetails.byId), nodes, i, startedAt, now)
    {
      if i < 0 || i >= |st| {
        return st;
      }
      st' := st;
      if st[i] == Pending {
        st' := st[i := Active];
      }
      var key := KeyOf(nodes[i].id);
      if key in nodeDetails.byId {
        nodeDetails.byId := nodeDetails.byId[key := StartDetail(nodeDetails.byId[key], LabelText(nodes[i].caption), startedAt, now)];
      }
    }

    /** `finishNodeAt(i)`: an index out of range changes nothing;
        otherwise the node is done unless it is an error, and its detail
        record is finished. */
    method FinishNodeAt(st: seq<NodeState>, nodes: seq<Node>, i: int, now: string) returns (st': seq<NodeState>)
      requires |st| == |nodes|
      modifies nodeDetails
      ensures |st'| == |st|
      ensures forall k :: 0 <= k < |st| ==> st'[k] == if k == i then Finished(st[k]) else st[k]
      ensures nodeDetails.byId == FinishDetails(old(nodeDetails.byId), nodes, i, now)
    {
      if i < 0 || i >= |st| {
        return st;
      }
      st' := st;
      if st[i] != Error {
        st' := st[i := Done];
      }
      var key := KeyOf(nodes[i].id);
      if key in nodeDetails.byId {
        nodeDetails.byId := nodeDetails.byId[key := FinishDetail(nodeDetails.byId[key], LabelText(nodes[i].caption), now)];
      }
    }

    /** Finishes nodes 0 .. n - 1 of st, in order. */
    method FinishUpTo(st: seq<NodeState>, nodes: seq<Node>, n: int, now: string) returns (st': seq<NodeState>)
      requires |st| == |nodes| && 0 <= n <= |st|
      modifies nodeDetails
      ensures |st'| == |st|
      ensures forall k :: 0 <= k < |st| ==> st'[k] == if k < n then Finished(st[k]) else st[k]
      ensures nodeDetails.byId == FinishDetailsUpTo(old(nodeDetails.byId), nodes, n, now)
    {
      st' := st;
      for k := 0 to n
        invariant |st'| == |st|
        invariant forall j :: 0 <= j < |st| ==> st'[j] == if j < k then Finished(st[j]) else st[j]
        invariant nodeDetails.byId == FinishDetailsUpTo(old(nodeDetails.byId), nodes, k, now)
      {
        st' := FinishNodeAt(st', nodes, k, now);
      }
    }

    /** The current block moves to node idx: `finishNodeAt(prev)` when it
        moves away from a node, `finishNodeAt(k)` for every k before idx,
        then `startNodeAt(idx)`. */
    method MoveTo(st: seq<NodeState>, nodes: seq<Node>, prev: int, idx: int, startedAt: string, now: string)
      returns (st': seq<NodeState>)
      requires |st| == |nodes| && 0 <= idx < |st|
      modifies nodeDetails
      ensures st' == AfterCurrent(st, prev, idx)
      ensures nodeDetails.byId == MoveDetails(old(nodeDetails.byId), nodes, prev, idx, startedAt, now)
    {
      st' := st;
      if prev != idx && prev >= 0 {
        st' := FinishNodeAt(st', nodes, prev, now);
      }
      st' := FinishUpTo(st', nodes, idx, now);
      st' := StartNodeAt(st', nodes, idx, startedAt, now);
    }

    /** The reported status: success finishes every node; failure marks
        node min(index, last) and its record as failed. */
    method ApplyStatus(st: seq<NodeState>, nodes: seq<Node>, index: int, status: Option<string>, now: string)
      returns (st': seq<NodeState>)
      requires |st| == |nodes|
      modifies nodeDetails
      ensures st' == AfterStatus(st, index, status)
      ensures nodeDetails.byId == StatusDetails(old(nodeDetails.byId), nodes, index, status, now)
    {
      st' := st;
      if Succeeds(status) {
        st' := FinishUpTo(st', nodes, |st|, now);
      } else if Fails(status) {
        var i := if index < |st| - 1 then index else |st| - 1;
        if i >= 0 {
          st' := st'[i := Error];
          var key := KeyOf(nodes[i].id);
          if key in nodeDetails.byId {
            nodeDetails.byId := nodeDetails.byId[key := FailDetail(nodeDetails.byId[key], LabelText(nodes[i].caption), now)];
          }
        }
      }
    }

    /** The state after a `wfstate` message with payload data: without a
        node list nothing changes; otherwise the progress moves to the
        current node when it is one of the nodes, then the reported status
        is applied. The log, the stream and the metadata stay. */
    twostate predicate WfStateApplied(data: WfState, now: string)
      reads this, nodeDetails
    {
      logs == old(logs) && busy == old(busy) && streamOpen == old(streamOpen) && runId == old(runId)
      && meta == old(meta) && selectedWf == old(selectedWf)
      && (meta.nodes.None? ==>
            states == old(states) && index == old(index) && status == old(status)
            && nodeDetails.byId == old(nodeDetails.byId))
      && (meta.nodes.Some? ==>
            var idx := Located(meta.nodes.value, data.current);
            index == (if idx >= 0 then idx else old(index))
            && states == AfterStatus(if idx >= 0 then AfterCurrent(old(states), old(index), idx) else old(states),
                                     index, data.status)
            && status == StatusAfter(data.status)
            && nodeDetails.byId ==
                 StatusDetails(if idx >= 0 then MoveDetails(old(nodeDetails.byId), meta.nodes.value, old(index), idx,
                                                             data.current.value.startedAt, now)
                               else old(nodeDetails.byId),
                               meta.nodes.value, index, data.status, now))
    }

    /** A `wfstate` message (the extension's state). Ignored while the
        metadata has no node list. Otherwise, when the current block is one
        of the nodes, the progress moves to it; then the reported status
        finishes every node, marks the current one as failed, or only sets
        the run running. */
    method OnWfState(data: WfState, now: string)
      requires Valid()
      modifies this, nodeDetails
      ensures Valid()
      ensures WfStateApplied(data, now)
    {
      if meta.nodes.None? {
        return;
      }
      var nodes := meta.nodes.value;
      var st := states;
      var idx := Located(nodes, data.current);
      if idx >= 0 {
        st := MoveTo(st, nodes, index, idx, data.current.value.startedAt, now);
        index := idx;
      }
      st := ApplyStatus(st, nodes, index, data.status, now);
      status := StatusAfter(data.status);
      states := st;
    }

    /** The state after a `wfmeta` message with metadata m: the metadata
        replaced, every node pending at index 0 with a pending record per
        node key, and the run running. The log and the stream stay. */
    twostate predicate WfMetaApplied(m: Meta)
      reads this, nodeDetails
    {
      meta == m && states == seq(|NodesOf(m)|, _ => Pending) && index == 0 && status == Running
      && nodeDetails.byId.Keys == NodeKeys(NodesOf(m))
      && (forall k :: k in nodeDetails.byId ==> nodeDetails.byId[k] == PendingDetail)
      && logs == old(logs) && busy == old(busy) && streamOpen == old(streamOpen) && runId == old(runId)
      && selectedWf == old(selectedWf)
    }

    /** A `wfmeta` message: the metadata is replaced and the progress
        reset to all pending, at index 0, with the run running. */
    method OnWfMeta(m: Meta)
      modifies this, nodeDetails
      ensures Valid()
      ensures WfMetaApplied(m)
    {
      meta := m;
      ResetProgress();
      status := Running;
    }

    /** The `end` handling of every node: each node that is not an error
        becomes done, and its detail record is ended. */
    method EndNodes(st: seq<NodeState>, nodes: seq<Node>, now: string) returns (st': seq<NodeState>)
      requires |st| == |nodes|
      modifies nodeDetails
      ensures st' == seq(|st|, k requires 0 <= k < |st| => Finished(st[k]))
      ensures nodeDetails.byId == EndDetailsUpTo(old(nodeDetails.byId), nodes, |st|, now)
    {
      st' := st;
      for k := 0 to |st|
        invariant |st'| == |st|
        invariant forall j :: 0 <= j < |st| ==> st'[j] == if j < k then Finished(st[j]) else st[j]
        invariant nodeDetails.byId == EndDetailsUpTo(old(nodeDetails.byId), nodes, k, now)
      {
        st' := st'[k := Finished(st'[k])];
        var key := EndKey(nodes[k].id);
        if key in nodeDetails.byId {
          nodeDetails.byId := nodeDetails.byId[key := EndDetail(nodeDetails.byId[key], EndLabelText(nodes[k].caption), now)];
        }
      }
    }

    /** The state after a log entry m: it is appended; `end` while there
        are nodes finishes every node that is not an error, ends the
        records and sets the run succeeded; a stop hint sets it stopped;
        `end`, `error` and a stop hint close the stream and clear busy. */
    twostate predicate EntryApplied(m: Message, now: string)
      reads this, nodeDetails
    {
      logs == old(logs) + [m] && runId == old(runId) && meta == old(meta) && index == old(index)
      && selectedWf == old(selectedWf)
      && (Terminal(m) ==> !busy && !streamOpen)
      && (!Terminal(m) ==> busy == old(busy) && streamOpen == old(streamOpen))
      && (m.kind == Some("end") && old(states) != [] ==>
            states == seq(|old(states)|, k requires 0 <= k < |old(states)| => Finished(old(states)[k]))
            && status == Succeeded
            && nodeDetails.byId == EndDetailsUpTo(old(nodeDetails.byId), NodesOf(meta), |states|, now))
      && (!(m.kind == Some("end") && old(states) != []) ==>
            states == old(states) && nodeDetails.byId == old(nodeDetails.byId)
            && status == (if StopHint(m) then Stopped else old(status)))
    }

    /** Any other message is appended to the log. While there are nodes,
        `end` finishes every node that is not an error (adding a completion
        entry to a detail record that lacks one) and sets the run
        succeeded, and a stop hint sets it stopped. `end`, `error` and a
        stop hint close the stream and clear busy. */
    method OnEntry(m: Message, now: string)
      requires Valid()
      modifies this, nodeDetails
      ensures Valid()
      ensures EntryApplied(m, now)
    {
      logs := logs + [m];
      var hint := StopHint(m);
      if |states| > 0 {
        var st := states;
        if m.kind == Some("end") {
          st := EndNodes(st, NodesOf(meta), now);
          status := Succeeded;
        } else if hint {
          status := Stopped;
        }
        states := st;
      }
      if Terminal(m) {
        streamOpen := false;
        busy := false;
        if hint {
          status := Stopped;
        }
      }
    }

    /** `onData`: a missing message or a heartbeat changes nothing; a
        `wfstate` or `wfmeta` message with its payload drives the progress;
        anything else is a log entry. Only `wfmeta` can move a node back. */
    method OnData(m: Option<Message>, now: string)
      requires Valid()
      modifies this, nodeDetails
      ensures Valid()
      ensures m.None? || m.value.kind == Some("ping") ==>
        logs == old(logs) && runId == old(runId) && busy == old(busy) && streamOpen == old(streamOpen) && meta == old(meta)
        && index == old(index) && states == old(states) && status == old(status) && nodeDetails.byId == old(nodeDetails.byId)
      ensures !(m.Some? && m.value.kind == Some("wfmeta") && m.value.meta.Some?) ==>
        Advanced(old(states), states) && AllGrown(old(nodeDetails.byId), nodeDetails.byId)
      ensures m.Some? && m.value.kind == Some("wfstate") && m.value.data.Some? ==>
        WfStateApplied(m.value.data.value, now)
      ensures m.Some? && m.value.kind == Some("wfmeta") && m.value.meta.Some? ==> WfMetaApplied(m.value.meta.value)
      ensures (m.Some? && m.value.kind != Some("ping")
               && !(m.value.kind == Some("wfstate") && m.value.data.Some?)
               && !(m.value.kind == Some("wfmeta") && m.value.meta.Some?))
              ==> EntryApplied(m.value, now)
      ensures selectedWf == old(selectedWf)
    {
      if m.None? || m.value.kind == Some("ping") {
        return;
      }
      var msg := m.value;
      if msg.kind == Some("wfstate") && msg.data.Some? {
        ghost var idx := if meta.nodes.Some? then Located(meta.nodes.value, msg.data.value.current) else -1;
        ghost var st0 := states;
        ghost var i0 := index;
        ghost var ds0 := nodeDetails.byId;
        OnWfState(msg.data.value, now);
        if meta.nodes.Some? {
          var nodes := meta.nodes.value;
          var st1 := if idx >= 0 then AfterCurrent(st0, i0, idx) else st0;
          var ds1 := if idx >= 0 then MoveDetails(ds0, nodes, i0, idx, msg.data.value.current.value.startedAt, now) else ds0;
          if idx >= 0 {
            AfterCurrentAdvances(st0, i0, idx);
            MoveDetailsGrow(ds0, nodes, i0, idx, msg.data.value.current.value.startedAt, now);
          }
          AfterStatusAdvances(st1, index, msg.data.value.status);
          AdvancedTransitive(st0, st1, states);
          StatusDetailsGrow(ds1, nodes, index, msg.data.value.status, now);
          AllGrownTransitive(ds0, ds1, nodeDetails.byId);
        }
        return;
      }
      if msg.kind == Some("wfmeta") && msg.meta.Some? {
        OnWfMeta(msg.meta.value);
        return;
      }
      ghost var ds0 := nodeDetails.byId;
      OnEntry(msg, now);
      if msg.kind == Some("end") && old(states) != [] {
        EndDetailsUpToSettles(ds0, NodesOf(meta), |states|, now);
      }
    }
  }

  lemma AdvancedTransitive(a: seq<NodeState>, b: seq<NodeState>, c: seq<NodeState>)
    requires Advanced(a, b) && Advanced(b, c)
    ensures Advanced(a, c)
  {
  }

  /** Whether the answer to `start`'s request is a success (`code` 200
      and a run id). */
  predicate Accepts(outcome: StartOutcome) {
    outcome.Answered? && outcome.reply.Some? && outcome.reply.value.code == 200 && outcome.reply.value.runId != ""
  }

  /** The line `start` logs when the request does not succeed. */
  function FailureText(outcome: StartOutcome): string {
    match outcome
    case Threw(message) => "[client] 异常：" + message
    case Answered(reply) =>
      "[client] 请求失败：" + (if reply.Some? && reply.value.msg != "" then reply.value.msg else "未知错误")
  }

  function FailureLevel(outcome: StartOutcome): string {
    if outcome.Threw? then "error" else "warn"
  }
}

=== FILE: store.dfy ===
/** The in-memory run registry of runner/src/core/store.js.

    A run record is `{ id, status, createdAt, logs, lastLogAt, __listeners }`;
    the store maps run ids to records. A listener is an open HTTP response
    (an event stream), named here by a `SinkId`. Everything ever written to a
    response is recorded, in order, in the `Wire`: that trace is what a
    subscriber receives. */
module RunStore {
  import opened Common

  type RunId = string

  /** An open HTTP response that log entries are written to. */
  type SinkId = nat

  /** A log entry `{ type, text, ts }`. */
  datatype LogEntry = LogEntry(kind: string, text: string, ts: string)

  datatype Status = Queued | Running | Succeeded | Failed

  datatype Run = Run(
    id: RunId,
    status: Status,
    createdAt: string,
    endedAt: Option<string>,
    error: Option<string>,
    logs: seq<LogEntry>,
    lastLogAt: Option<string>,
    listeners: seq<SinkId>)

  /** One `res.write` of a server-sent event: a log entry, or a heartbeat. */
  datatype Write = Data(sink: SinkId, entry: LogEntry) | Ping(sink: SinkId, ts: string)

  /** The writes of one fanout of e, one per listener, in listener order. */
  function Fanout(listeners: seq<SinkId>, e: LogEntry): (w: seq<Write>)
    ensures |w| == |listeners|
    ensures forall i :: 0 <= i < |w| ==> w[i] == Data(listeners[i], e)
  {
    if listeners == [] then []
    else Fanout(listeners[..|listeners| - 1], e) + [Data(listeners[|listeners| - 1], e)]
  }

  /** The log entries written to sink s, in the order they were written
      (heartbeats are not log entries). */
  function Received(sent: seq<Write>, s: SinkId): seq<LogEntry> {
    if sent == [] then []
    else
      var last := sent[|sent| - 1];
      Received(sent[..|sent| - 1], s) + (if last.Data? && last.sink == s then [last.entry] else [])
  }

  /** How often x occurs in xs. */
  function Count<T(==)>(xs: seq<T>, x: T): nat {
    if xs == [] then 0 else (if xs[0] == x then 1 else 0) + Count(xs[1..], x)
  }

  predicate NoDuplicates<T(==)>(xs: seq<T>) {
    forall i, j :: 0 <= i < j < |xs| ==> xs[i] != xs[j]
  }

  /** `xs.filter((r) => r !== x)` */
  function Without(xs: seq<SinkId>, x: SinkId): (r: seq<SinkId>)
    ensures |r| <= |xs|
    ensures forall y :: y in r <==> y in xs && y != x
  {
    if xs == [] then []
    else if xs[0] == x then Without(xs[1..], x)
    else [xs[0]] + Without(xs[1..], x)
  }

  lemma {:induction false} ReceivedAppend(a: seq<Write>, b: seq<Write>, s: SinkId)
    ensures Received(a + b, s) == Received(a, s) + Received(b, s)
    decreases |b|
  {
    if b == [] {
      assert a + b == a;
    } else {
      var b' := b[..|b| - 1];
      assert (a + b)[..|a + b| - 1] == a + b';
      ReceivedAppend(a, b', s);
    }
  }

  /** A fanout delivers e to s once per occurrence of s among the listeners. */
  lemma {:induction false} ReceivedFanout(listeners: seq<SinkId>, e: LogEntry, s: SinkId)
    ensures Received(Fanout(listeners, e), s) == seq(Count(listeners, s), _ => e)
    decreases |listeners|
  {
    if listeners != [] {
      var init := listeners[..|listeners| - 1];
      var last := listeners[|listeners| - 1];
      ReceivedFanout(init, e, s);
      assert Fanout(listeners, e) == Fanout(init, e) + [Data(last, e)];
      ReceivedAppend(Fanout(init, e), [Data(last, e)], s);
      assert Received([Data(last, e)], s) == (if last == s then [e] else []) by {
        assert [Data(last, e)][..0] == [];
      }
      assert listeners == init + [last];
      CountSnoc(init, last, s);
      var n := Count(init, s);
      if last == s {
        assert seq(n + 1, _ => e) == seq(n, _ => e) + [e];
      } else {
        assert seq(n, _ => e) + [] == seq(n, _ => e);
      }
    }
  }

  lemma {:induction false} CountSnoc<T>(xs: seq<T>, y: T, x: T)
    ensures Count(xs + [y], x) == Count(xs, x) + (if y == x then 1 else 0)
    decreases |xs|
  {
    if xs == [] {
      assert xs + [y] == [y];
    } else {
      assert (xs + [y])[1..] == xs[1..] + [y];
      CountSnoc(xs[1..], y, x);
    }
  }

  lemma {:induction false} CountNoDuplicates<T>(xs: seq<T>, x: T)
    requires NoDuplicates(xs)
    ensures Count(xs, x) == if x in xs then 1 else 0
    decreases |xs|
  {
    if xs != [] {
      assert NoDuplicates(xs[1..]) by {
        forall i, j | 0 <= i < j < |xs[1..]| ensures xs[1..][i] != xs[1..][j] {
          assert xs[1..][i] == xs[i + 1] && xs[1..][j] == xs[j + 1];
        }
      }
      CountNoDuplicates(xs[1..], x);
      if xs[0] == x {
        assert x !in xs[1..] by {
          forall k | 0 <= k < |xs[1..]| ensures xs[1..][k] != x {
            assert xs[1..][k] == xs[k + 1];
          }
        }
      } else {
        assert x in xs <==> x in xs[1..] by {
          assert xs == [xs[0]] + xs[1..];
        }
      }
    }
  }

  /** With distinct listeners, a fanout delivers e exactly once to each
      listener and nothing to anybody else. */
  lemma FanoutExactlyOnce(listeners: seq<SinkId>, e: LogEntry, s: SinkId)
    requires NoDuplicates(listeners)
    ensures Received(Fanout(listeners, e), s) == if s in listeners then [e] else []
  {
    ReceivedFanout(listeners, e, s);
    CountNoDuplicates(listeners, s);
  }

  /** Filtering out x commutes with concatenation, and keeps every other
      element: together this says `Without` keeps the remaining listeners in
      their original order. */
  lemma {:induction false} WithoutAppend(a: seq<SinkId>, b: seq<SinkId>, x: SinkId)
    ensures Without(a + b, x) == Without(a, x) + Without(b, x)
    ensures Without([x], x) == []
    ensures forall y :: y != x ==> Without([y], x) == [y]
    decreases |a|
  {
    if a == [] {
      assert a + b == b;
    } else {
      assert (a + b)[1..] == a[1..] + b;
      WithoutAppend(a[1..], b, x);
    }
  }

  /** Removing a listener removes every occurrence and keeps the other
      listeners' multiplicities. */
  lemma {:induction false} WithoutCount(xs: seq<SinkId>, x: SinkId, y: SinkId)
    ensures Count(Without(xs, x), y) == if y == x then 0 else Count(xs, y)
    decreases |xs|
  {
    if xs != [] {
      WithoutCount(xs[1..], x, y);
      if xs[0] != x {
        assert ([xs[0]] + Without(xs[1..], x))[1..] == Without(xs[1..], x);
      }
    }
  }

  lemma {:induction false} WithoutNoDuplicates(xs: seq<SinkId>, x: SinkId)
    requires NoDuplicates(xs)
    ensures NoDuplicates(Without(xs, x))
    decreases |xs|
  {
    if xs != [] {
      assert NoDuplicates(xs[1..]) by {
        forall i, j | 0 <= i < j < |xs[1..]| ensures xs[1..][i] != xs[1..][j] {
          assert xs[1..][i] == xs[i + 1] && xs[1..][j] == xs[j + 1];
        }
      }
      WithoutNoDuplicates(xs[1..], x);
      if xs[0] != x {
        var r := [xs[0]] + Without(xs[1..], x);
        assert xs[0] !in xs[1..] by {
          forall k | 0 <= k < |xs[1..]| ensures xs[1..][k] != xs[0] {
            assert xs[1..][k] == xs[k + 1];
          }
        }
        forall i, j | 0 <= i < j < |r| ensures r[i] != r[j] {
          if i == 0 {
            assert r[j] in Without(xs[1..], x);
          } else {
            assert r[i] == Without(xs[1..], x)[i - 1] && r[j] == Without(xs[1..], x)[j - 1];
          }
        }
      }
    }
  }

  /** Removing a sink that is not listening changes nothing. */
  lemma {:induction false} WithoutAbsent(xs: seq<SinkId>, x: SinkId)
    requires x !in xs
    ensures Without(xs, x) == xs
    decreases |xs|
  {
    if xs != [] {
      WithoutAbsent(xs[1..], x);
      assert xs == [xs[0]] + xs[1..];
    }
  }

  /** The record `initRun` creates. */
  function NewRun(id: RunId, createdAt: string): Run {
    Run(id, Queued, createdAt, None, None, [], None, [])
  }

  /** The outgoing side of every open HTTP response: all writes, in order. */
  class Wire {
    var sent: seq<Write>

    constructor()
      ensures sent == []
    {
      sent := [];
    }

    /** `res.write(...)` */
    method Send(w: Write)
      modifies this
      ensures sent == old(sent) + [w]
    {
      sent := sent + [w];
    }
  }

  /** The module-level `runs` map and the operations of store.js. */
  class Store {
    var runs: map<RunId, Run>
    const wire: Wire

    constructor(wire: Wire)
      ensures runs == map[] && this.wire == wire
    {
      runs := map[];
      this.wire := wire;
    }

    /** `initRun`: a new queued record with an empty log, which replaces any
        record under the same id; every other id keeps its record. */
    method InitRun(id: RunId, createdAt: string) returns (r: Run)
      modifies this
      ensures r == NewRun(id, createdAt)
      ensures r.status == Queued && r.logs == [] && r.listeners == []
      ensures runs == old(runs)[id := r]
      ensures forall other :: other != id && other in old(runs) ==> other in runs && runs[other] == old(runs[other])
    {
      r := NewRun(id, createdAt);
      runs := runs[id := r];
    }

    /** `getRun`: the record under id, or nothing for an unknown id. */
    function GetRun(id: RunId): (r: Option<Run>)
      reads this
      ensures r.Some? <==> id in runs
      ensures r.Some? ==> r.value == runs[id]
    {
      if id in runs then Some(runs[id]) else None
    }

    /** `pushLog`: appends e to the log of run id and writes it to every
        listener in registration order; an unknown id changes nothing. */
    method PushLog(id: RunId, e: LogEntry)
      modifies this, wire
      ensures id !in old(runs) ==> runs == old(runs) && wire.sent == old(wire.sent)
      ensures id in old(runs) ==>
        runs == old(runs)[id := old(runs[id]).(logs := old(runs[id].logs) + [e], lastLogAt := Some(e.ts))]
        && wire.sent == old(wire.sent) + Fanout(old(runs[id].listeners), e)
    {
      if id !in runs {
        return;
      }
      var s := runs[id];
      runs := runs[id := s.(logs := s.logs + [e], lastLogAt := Some(e.ts))];
      ghost var updated := runs;
      var listeners := s.listeners;
      for i := 0 to |listeners|
        invariant runs == updated
        invariant wire.sent == old(wire.sent) + Fanout(listeners[..i], e)
      {
        assert listeners[..i + 1][..i] == listeners[..i];
        wire.Send(Data(listeners[i], e));
      }
      assert listeners[..|listeners|] == listeners;
    }

    /** `addListener`: false, and nothing changes, for an unknown run;
        otherwise the sink becomes the last listener. */
    method AddListener(id: RunId, sink: SinkId) returns (ok: bool)
      modifies this
      ensures ok == (id in old(runs))
      ensures !ok ==> runs == old(runs)
      ensures ok ==> runs == old(runs)[id := old(runs[id]).(listeners := old(runs[id].listeners) + [sink])]
    {
      if id !in runs {
        return false;
      }
      var s := runs[id];
      runs := runs[id := s.(listeners := s.listeners + [sink])];
      return true;
    }

    /** `removeListener`: every occurrence of the sink leaves the listener
        list; an unknown run is left alone. */
    method RemoveListener(id: RunId, sink: SinkId)
      modifies this
      ensures id !in old(runs) ==> runs == old(runs)
      ensures id in old(runs) ==> runs == old(runs)[id := old(runs[id]).(listeners := Without(old(runs[id].listeners), sink))]
    {
      if id !in runs {
        return;
      }
      var s := runs[id];
      runs := runs[id := s.(listeners := Without(s.listeners, sink))];
    }
  }
}

=== FILE: trigger.dfy ===
/** Starting a workflow inside the extension (runner/src/core/trigger.js):
    the runner opens the extension's execute page, sends the background
    script the `workflow:execute` message, and from then on reports the
    extension's stored workflow state on the console, as lines that start
    with `[RUNNER:STATE]`. The page's behaviour (whether it loads, whether
    the extension runtime shows up, which runtime object exists) is an
    input. */
module Trigger {
  import opened Common
  import opened JsValues
  import RunStore
  import Config

  const ExecuteMessageName: string := "background--workflow:execute"
  const StatePrefix: string := "[RUNNER:STATE]"
  const TriggeredText: string := "Triggered workflow via extension page"

  function ExecutePageUrl(extId: string): string {
    "chrome-extension://" + extId + "/execute.html"
  }

  /** `{ ...workflowObj }` with its `id` defaulted to `runner-<timestamp>`
      when it is missing or falsy. The workflow given is a value, so the
      caller's object is never changed. */
  function WorkflowToSend(wf: seq<(string, Json)>, stamp: nat): (r: seq<(string, Json)>)
    ensures Present(Lookup(wf, "id")) ==> r == wf
    ensures !Present(Lookup(wf, "id")) ==> Lookup(r, "id") == Some(Str("runner-" + Config.Decimal(stamp)))
    ensures forall k :: k != "id" ==> Lookup(r, k) == Lookup(wf, k)
    ensures Present(Lookup(r, "id"))
  {
    if Present(Lookup(wf, "id")) then wf else Assign(wf, "id", Str("runner-" + Config.Decimal(stamp)))
  }

  /** `variables || {}` */
  function Vars(variables: Option<Json>): Json {
    if Present(variables) then variables.value else Obj([])
  }

  /** The options every execute message carries. */
  function ExecuteOptions(vars: Json): (o: Json)
    ensures Get(o, "checkParams") == Some(Bool(false))
    ensures Get(o, "data").Some? && Get(Get(o, "data").value, "variables") == Some(vars)
  {
    Obj(Assign([("checkParams", Bool(false))], "data", Obj([("variables", vars)])))
  }

  /** `{ name, data: { ...wf, options: { checkParams: false, data: { variables } } } }`:
      the message carries the workflow's fields unchanged, except that its
      own `options` are replaced by the runner's, which carry the
      variables. */
  function ExecuteMessage(wf: seq<(string, Json)>, vars: Json): (m: Json)
    ensures Get(m, "name") == Some(Str(ExecuteMessageName))
    ensures Get(m, "data").Some? && Get(m, "data").value.Obj?
    ensures var data := Get(m, "data").value;
      Get(data, "options") == Some(ExecuteOptions(vars))
      && forall k :: k != "options" ==> Get(data, k) == Lookup(wf, k)
  {
    Obj(Assign([("name", Str(ExecuteMessageName))], "data", Obj(Assign(wf, "options", ExecuteOptions(vars)))))
  }

  // ---------------------------------------------------------------------
  // The code run inside the page

  /** Which extension runtime the page offers: `chrome.runtime.sendMessage`,
      `browser.runtime.sendMessage`, both or neither. */
  datatype PageRuntime = PageRuntime(chrome: bool, browser: bool)

  datatype Runtime = ChromeRuntime | BrowserRuntime

  /** What the evaluated function returns: `true` once the message is
      sent, `false` without a runtime, `{ error }` when sending threw. */
  datatype Evaluation = Sent | NotSent | Threw(error: string)

  /** The runtime the message goes through: `chrome` in preference to
      `browser`. */
  function ChooseRuntime(p: PageRuntime): (r: Option<Runtime>)
    ensures r.None? <==> !p.chrome && !p.browser
    ensures p.chrome ==> r == Some(ChromeRuntime)
  {
    if p.chrome then Some(ChromeRuntime) else if p.browser then Some(BrowserRuntime) else None
  }

  /** The values of `Object.values(state)` / the array itself. */
  function Records(state: Json): seq<Json> {
    match state
    case Arr(items) => items
    case Obj(fields) => seq(|fields|, i requires 0 <= i < |fields| => fields[i].1)
    case Str(s) => seq(|s|, i requires 0 <= i < |s| => Str([s[i]]))
    case _ => []
  }

  /** `s && s.workflowId === wfId` */
  predicate IsRecordOf(s: Json, wfId: Json) {
    Truthy(s) && Get(s, "workflowId").Some? && StrictEquals(Get(s, "workflowId").value, wfId)
  }

  /** `find` over the records: the index of the first one of the workflow, or -1. */
  function FindRecord(list: seq<Json>, wfId: Json): (r: int)
    ensures -1 <= r < |list|
    ensures r >= 0 ==> IsRecordOf(list[r], wfId)
    ensures forall k :: 0 <= k < |list| && (r == -1 || k < r) ==> !IsRecordOf(list[k], wfId)
  {
    if list == [] then -1
    else if IsRecordOf(list[0], wfId) then 0
    else
      var r := FindRecord(list[1..], wfId);
      assert forall k :: 1 <= k < |list| ==> list[k] == list[1..][k - 1];
      if r == -1 then -1 else r + 1
  }

  /** `v[0]` */
  function First(v: Json): Option<Json> {
    match v
    case Arr(items) => if items == [] then None else Some(items[0])
    case Str(s) => if s == [] then None else Some(Str([s[0]]))
    case Obj(fields) => Lookup(fields, "0")
    case _ => None
  }

  /** `a || b` over possibly absent values. */
  function Or(a: Option<Json>, b: Json): Json {
    if Present(a) then a.value else b
  }

  /** The payload reported for a workflow state record:
      `{ status: state?.status || '', blocks: state?.currentBlock || [], current }`,
      `current` being the first current block, or null. */
  function StatePayload(item: Json): Json {
    var st := Get(item, "state");
    var blocks := if st.Some? then Get(st.value, "currentBlock") else None;
    var current :=
      if !Present(st) || !Present(blocks) then Null
      else Or(First(blocks.value), Null);
    Obj([("status", Or(if st.Some? then Get(st.value, "status") else None, Str(""))),
         ("blocks", Or(blocks, Arr([]))),
         ("current", current)])
  }

  /** `emit(state)`: the payload of the first record of workflow wfId, or
      nothing for a falsy state or when no record is the workflow's. */
  function Emit(state: Json, wfId: Json): (r: Option<Json>)
    ensures r.None? <==> !Truthy(state) || forall k :: 0 <= k < |Records(state)| ==> !IsRecordOf(Records(state)[k], wfId)
    ensures r.Some? ==> exists k :: 0 <= k < |Records(state)| && IsRecordOf(Records(state)[k], wfId)
                                    && r.value == StatePayload(Records(state)[k])
                                    && forall j :: 0 <= j < k ==> !IsRecordOf(Records(state)[j], wfId)
  {
    if !Truthy(state) then None
    else
      var i := FindRecord(Records(state), wfId);
      if i < 0 then None else Some(StatePayload(Records(state)[i]))
  }

  /** A reported payload always has a string-or-other status, a block
      list and a current block, in that order; the current block is null
      exactly when the record has no (truthy) first current block. */
  lemma StatePayloadShape(item: Json)
    ensures StatePayload(item).Obj? && |StatePayload(item).fields| == 3
    ensures StatePayload(item).fields[0].0 == "status" && StatePayload(item).fields[1].0 == "blocks"
            && StatePayload(item).fields[2].0 == "current"
    ensures Get(item, "state").None? ==>
      StatePayload(item).fields[0].1 == Str("") && StatePayload(item).fields[1].1 == Arr([])
      && StatePayload(item).fields[2].1 == Null
    ensures StatePayload(item).fields[2].1 == Null <==>
      !(Present(Get(item, "state")) && Present(Get(Get(item, "state").value, "currentBlock"))
        && Present(First(Get(Get(item, "state").value, "currentBlock").value)))
  {
  }

  /** The evaluated function: the message goes through the runtime chosen,
      unless sending throws. */
  function Evaluate(p: PageRuntime, sendError: Option<string>): (r: Evaluation)
    ensures r == NotSent <==> ChooseRuntime(p).None?
    ensures r == Sent <==> ChooseRuntime(p).Some? && sendError.None?
  {
    if ChooseRuntime(p).None? then NotSent
    else if sendError.Some? then Threw(sendError.value)
    else Sent
  }

  /** The log entry for the evaluation's result: an error entry when it
      carries a (non-empty) error, the info entry otherwise, `false`
      included. */
  function OutcomeEntry(e: Evaluation, ts: string): (entry: RunStore.LogEntry)
    ensures entry.kind == "error" <==> e.Threw? && e.error != ""
    ensures entry.kind == "error" ==> entry.text == "Trigger error: " + e.error
    ensures entry.kind != "error" ==> entry == RunStore.LogEntry("info", TriggeredText, ts)
    ensures entry.ts == ts
  {
    if e.Threw? && e.error != "" then RunStore.LogEntry("error", "Trigger error: " + e.error, ts)
    else RunStore.LogEntry("info", TriggeredText, ts)
  }

  /** How the execute page behaves: the error of opening it, if any; the
      error of its navigation, if any; the error with which the 5-second
      wait for the extension runtime rejects, if the runtime does not show
      up; which runtime objects it offers; the error with which
      `page.evaluate` itself rejects, if any (the function then does not
      run); and the error sending throws inside it, if any. */
  datatype Page = Page(newPageError: Option<string>, gotoError: Option<string>, runtimeTimeout: Option<string>,
                       runtime: PageRuntime, evaluateError: Option<string>, sendError: Option<string>)

  /** The warning logged when the navigation fails, if it does. */
  function LoadWarning(page: Page, ts: string): seq<RunStore.LogEntry> {
    if page.gotoError.Some?
    then [RunStore.LogEntry("warn", "Extension page load warning: " + page.gotoError.value, ts)]
    else []
  }

  /** `triggerViaExecutePage`. A page that cannot be opened fails the call
      before anything is logged. A failed navigation is only logged as a
      warning. When the runtime does not show up, the wait's timeout
      propagates and nothing is sent; so does a rejected evaluation.
      Otherwise the message with the workflow to send and the variables
      goes through the runtime chosen, unless sending throws, and the
      outcome is logged. `sent` is the message that left the page. */
  method TriggerViaExecutePage(extId: string, workflow: seq<(string, Json)>, variables: Option<Json>,
                               page: Page, stamp: nat, ts: string)
    returns (logged: seq<RunStore.LogEntry>, sent: Option<(Runtime, Json)>, r: Result<(), string>)
    ensures page.newPageError.Some? ==> logged == [] && sent.None? && r == Err(page.newPageError.value)
    ensures page.newPageError.None? && page.runtimeTimeout.Some? ==>
      logged == LoadWarning(page, ts) && sent.None? && r == Err(page.runtimeTimeout.value)
    ensures page.newPageError.None? && page.runtimeTimeout.None? && page.evaluateError.Some? ==>
      logged == LoadWarning(page, ts) && sent.None? && r == Err(page.evaluateError.value)
    ensures page.newPageError.None? && page.runtimeTimeout.None? && page.evaluateError.None? ==>
      r.Ok? && logged == LoadWarning(page, ts) + [OutcomeEntry(Evaluate(page.runtime, page.sendError), ts)]
      && (sent.Some? <==> Evaluate(page.runtime, page.sendError) == Sent)
    ensures sent.Some? ==>
      sent.value == (ChooseRuntime(page.runtime).value, ExecuteMessage(WorkflowToSend(workflow, stamp), Vars(variables)))
  {
    sent := None;
    if page.newPageError.Some? {
      return [], sent, Err(page.newPageError.value);
    }
    logged := LoadWarning(page, ts);
    var wfToSend := WorkflowToSend(workflow, stamp);
    if page.runtimeTimeout.Some? {
      return logged, sent, Err(page.runtimeTimeout.value);
    }
    if page.evaluateError.Some? {
      return logged, sent, Err(page.evaluateError.value);
    }
    var msg := ExecuteMessage(wfToSend, Vars(variables));
    var runtime := ChooseRuntime(page.runtime);
    var ok := Evaluate(page.runtime, page.sendError);
    if ok == Sent {
      sent := Some((runtime.value, msg));
    }
    logged := logged + [OutcomeEntry(ok, ts)];
    return logged, sent, Ok(());
  }
}
